=== FILE: README.md ===
# ClientHub record store, in Dafny

This project models the back end of a freelancer's client and project tracker,
Freelance ClientHub. It covers the owner-scoped record store and the
authentication guard in front of it:

- **Store.** There are three document collections: `users`, `clients` and
  `projects`. The model keeps them as maps from id to document.
- **Repositories.** Every read, write and delete of a client or project
  filters on the pair (id, owner). Listings come back newest first. A client
  listing can be narrowed by a search term that matches the name, email or
  company regardless of case.
- **Services.**
  - The repositories' absence results become 404s.
  - An empty update payload turns into a plain read.
  - A new project must name a client the caller owns.
  - A status update is validated before it runs.
- **Models and schemas.**
  - `to_document` builds a stored document.
  - The constructor reads a document back into an object.
  - The request schemas constrain the fields.
  - `model_dump(exclude_unset=True)` turns a partial update into the keys to `$set`.
- **Auth.**
  - Registration is refused when the email is taken.
  - Login answers the same 401 for a wrong email and a wrong password.
  - Login sets the session cookie, and logout expires it.
  - The `get_current_user` guard turns the `access_token` cookie into the
    signed-in user's public identity, or a 401.

Environment inputs are parameters of the operations:

- the clock reading `now`, a natural number of seconds standing for `datetime.utcnow()`;
- the fresh ObjectId `newId` the database assigns on insert;
- the password hasher and token codec, a `Security.Crypto` value. The laws the
  application relies on are ghost predicates:
  - `Security.HashLawful`: a password verifies against its own hash;
  - `Security.TokenLawful`: a token issued for a string subject and an expiry
    time `exp` is non-empty. It decodes exactly while the clock has not passed
    `exp`, and then to a payload whose `sub` is that subject. Only string
    subjects are issued: `create_access_token` is given the user's id.
  - `Security.SubjectLawful`: a payload that decodes carries a string `sub` or
    none, because python-jose checks the `sub` claim while decoding.
  - `Security.LawsCanHold` shows that a concrete codec meets all three laws.

Files:

- `documents.dfy`: values, documents, `Option`, `Result` and HTTP errors, and
  the database triple.
- `text.dfy`: case-insensitive substring search.
- `scoped.dfy`: the owner-scoped find, `$set`, delete and newest-first sort.
- `models.dfy`: the `Client`, `Project` and `User` classes.
- `repositories.dfy`: the three repositories.
- `schemas.dfy`: the request and response schemas.
- `services.dfy`: the client and project services.
- `auth.dfy`: the crypto laws, `get_current_user` and the auth service.

## Model

| member | source | states |
|---|---|---|
| Scoped.FindOwned | backend/app/repositories/client_repository.py:19-23 | finds a document exactly when it exists under that id and its `user_id` is the owner |
| Scoped.SetOwned | backend/app/repositories/client_repository.py:41-46 | `$set` on an owned document merges the patch over it; reports modified only for an owned document the patch actually changed; anything else leaves the collection as it was |
| Scoped.SetTwice | backend/app/repositories/client_repository.py:41-44 | a second `$set` with at least the keys of the first, where the first leaves the owner alone, gives the same collection as the second alone |
| Scoped.DeleteOwned | backend/app/repositories/client_repository.py:49-53 | deletes exactly when the filter matches; removes only that key and keeps every other document |
| Scoped.InsertNewestFirst | backend/app/repositories/client_repository.py:33 | inserting into a newest-first sequence adds exactly that one key (multiset) and keeps the order |
| Scoped.SelectNewestFirst | backend/app/repositories/client_repository.py:33-35 | `find(query).sort("created_at", -1)`: every selected document, and only those, exactly once, in non-increasing `created_at` |
| Text.ExactOccurrenceFound | backend/app/repositories/client_repository.py:27-32 | a literal occurrence of the term is found whatever the case of the text or the term |
| Text.TermCaseIrrelevant | backend/app/repositories/client_repository.py:29-31 | the `"i"` option: lowering the term never changes whether it matches |
| Text.ContainsIgnoringCase | backend/app/repositories/client_repository.py:29-31 | `{"$regex": term, "$options": "i"}` on a string field, read as a literal term: some position where every character of the term equals the text's character after case folding |
| Text.OccursAtIsLoweredSlice | backend/app/repositories/client_repository.py:29-31 | a match at one position is exactly equality of the lower-cased text slice with the lower-cased term |
| Text.SearchIsLoweredSubstring | backend/app/repositories/client_repository.py:29-31 | both directions: the term matches exactly when the lower-cased text contains the lower-cased term |
| Text.AcmeCorpFoundByAcme | backend/app/repositories/client_repository.py:29-31 | "acme" and "CORP" find "Acme Corp"; "acme inc" does not |
| ClientModel.ToDocument | backend/app/models/client.py:21-41 | writes exactly the eight keys; owner and name as given; each given optional stored as its string and each omitted one as null; both timestamps are the same clock reading |
| ClientModel.FromDocument | backend/app/models/client.py:10-19 | `user_id` and `name` are required; a truthy `_id` becomes the id, otherwise the `id` key (null when absent); each missing optional reads as null; each missing timestamp reads as the current clock |
| ClientModel.ClockIrrelevantWithTimestamps | backend/app/models/client.py:18-19 | a document with both timestamps reads back the same at any clock reading |
| ClientModel.ReadBackNew | backend/app/models/client.py:10-41 | round trip: a new document with its id reads back as exactly the `to_document` arguments, created and updated at one instant |
| ProjectModel.ToDocument | backend/app/models/project.py:23-45 | writes exactly the nine keys; owner, client and title as given; the status as given or "idea"; description, rate and deadline stored when given and null otherwise; both timestamps are one clock reading |
| ProjectModel.FromDocument | backend/app/models/project.py:11-21 | `user_id`, `client_id` and `title` are required; a truthy `_id` becomes the id, otherwise the `id` key; a missing status reads as "idea"; other missing optionals read as null |
| ProjectModel.StatusPatchReadBack | backend/app/models/project.py:11-21 | setting `status` and `updated_at` changes exactly those two attributes of the object read back |
| ProjectModel.ClockIrrelevantWithTimestamps | backend/app/models/project.py:20-21 | a document with both timestamps reads back the same at any clock reading |
| ProjectModel.ReadBackNew | backend/app/models/project.py:11-45 | round trip: a new project document reads back as the arguments, with the status defaulted |
| UserModel.ToDocument | backend/app/models/user.py:18-32 | writes exactly the five keys; the email as given, the stored password the hash given, `full_name` the name given or null; both timestamps are one clock reading |
| UserModel.FromDocument | backend/app/models/user.py:10-16 | `email` and `password_hash` are required; a truthy `_id` becomes the id, otherwise the `id` key; a missing `full_name` reads as null |
| ClientRepository.Entity | backend/app/repositories/client_repository.py:23 | a stored client reads back under its own id, owner and creation time |
| ClientRepository.Insert | backend/app/repositories/client_repository.py:14-17 | adds exactly the new key with the document as given; keeps every other client; returns the object read back under the fresh id |
| ClientRepository.GetById | backend/app/repositories/client_repository.py:19-23 | some client exactly when the caller owns the id; it is the stored one |
| ClientRepository.ForeignLooksMissing | backend/app/repositories/client_repository.py:19-23 | another user's client answers exactly as if it were absent |
| ClientRepository.MatchesSearch | backend/app/repositories/client_repository.py:28-32 | the `$or` of the three regex conditions: the term matches the name, the email or the company |
| ClientRepository.Listed | backend/app/repositories/client_repository.py:26-32 | the query: owned by the user, and matching the search only when the search is truthy |
| ClientRepository.ListByUser | backend/app/repositories/client_repository.py:25-35 | exactly the owner's clients the search selects (an empty search selects all), each once, newest first |
| ClientRepository.Update | backend/app/repositories/client_repository.py:37-47 | sets the given keys and a fresh `updated_at` on the owned client and nothing else; reports the re-read client exactly when the write modified it |
| ClientRepository.UpdateIdempotent | backend/app/repositories/client_repository.py:37-47 | repeating an update gives the store a single update at the later clock would give |
| ClientRepository.UpdateFindsOwned | backend/app/repositories/client_repository.py:40-46 | once the clock has moved past the stored `updated_at`, updating an owned client always reports it |
| ClientRepository.Delete | backend/app/repositories/client_repository.py:49-53 | true exactly when an owned client was removed; nothing else changes |
| ProjectRepository.Entity | backend/app/repositories/project_repository.py:23 | a stored project reads back under its own id, owner, client and creation time |
| ProjectRepository.Insert | backend/app/repositories/project_repository.py:14-17 | adds exactly the new key; keeps every other project; returns the object read back |
| ProjectRepository.GetById | backend/app/repositories/project_repository.py:19-23 | some project exactly when the caller owns the id |
| ProjectRepository.ForeignLooksMissing | backend/app/repositories/project_repository.py:19-23 | another user's project answers exactly as if it were absent |
| ProjectRepository.Listed | backend/app/repositories/project_repository.py:26-28 | the query: owned by the user, and of the given client only when the client id is truthy |
| ProjectRepository.ListByUser | backend/app/repositories/project_repository.py:25-31 | exactly the owner's projects (of the client, when a non-empty one is given), each once, newest first |
| ProjectRepository.Update | backend/app/repositories/project_repository.py:33-43 | sets the given keys and a fresh `updated_at` on the owned project only; reports it exactly when modified |
| ProjectRepository.UpdateIdempotent | backend/app/repositories/project_repository.py:33-43 | repeating an update gives the store a single update at the later clock would give |
| ProjectRepository.UpdateFindsOwned | backend/app/repositories/project_repository.py:36-42 | once the clock has moved past the stored `updated_at`, updating an owned project always reports it |
| ProjectRepository.UpdateStatus | backend/app/repositories/project_repository.py:45-54 | only `status` and `updated_at` change; the project read back is the old one with those two replaced |
| ProjectRepository.StatusUpdateIsStatusPatch | backend/app/repositories/project_repository.py:45-54 | `update_status` is `update` with the single key `status` |
| ProjectRepository.Delete | backend/app/repositories/project_repository.py:56-60 | true exactly when an owned project was removed; nothing else changes |
| UserRepository.Entity | backend/app/repositories/user_repository.py:27 | a stored user reads back with its own id, email and hash |
| UserRepository.Insert | backend/app/repositories/user_repository.py:14-17 | adds exactly the new user; keeps every other |
| UserRepository.GetByEmail | backend/app/repositories/user_repository.py:19-21 | none exactly when no stored user has the email; otherwise a stored user with it |
| UserRepository.GetById | backend/app/repositories/user_repository.py:23-27 | some user exactly when the id is stored |
| ClientSchema.CreateValid | backend/app/schema/client.py:4-9 | `ClientCreate`: a name of 1 to 100 characters, a phone of at most 20, a company of at most 100 |
| ClientSchema.FieldValid | backend/app/schema/client.py:12-17 | `ClientUpdate`, one field: null or text within that field's bounds (name 1 to 100, phone at most 20, company at most 100; email and notes any text) |
| ClientSchema.UpdateValid | backend/app/schema/client.py:12-17 | every field the update sets satisfies its constraint |
| ClientSchema.Dump | backend/app/schema/client.py:12-17 | `model_dump(exclude_unset=True)`: exactly the fields that were set, under their keys, values as sent; empty exactly when nothing was set |
| ClientSchema.KeysInjective | backend/app/schema/client.py:12-17 | no two update fields share a document key |
| ClientSchema.CreateIsNamed | backend/app/schema/client.py:4-9 | every valid create payload stores a name of 1 to 100 characters |
| ClientSchema.NullNameUnnamesClient | backend/app/schema/client.py:13 | as written, `{"name": null}` passes validation and `$set` leaves the client without a name |
| ClientSchema.UpdateKeepsNamed | backend/app/schema/client.py:13 | with null refused for `name`, every valid update keeps a named client named |
| ClientSchema.ResponseHidesOwner | backend/app/schema/client.py:20-28 | the response ignores the owner and carries the id, each editable field and both timestamps, each under its own name |
| ProjectSchema.StatusPattern | backend/app/schema/project.py:9 | the status pattern: exactly one of the words idea, talks, in-progress, review, completed |
| ProjectSchema.CreateValid | backend/app/schema/project.py:5-11 | `ProjectCreate`: a title of 1 to 200 characters, a status matching the pattern, a non-negative rate when given |
| ProjectSchema.FieldValid | backend/app/schema/project.py:14-19 | `ProjectUpdate`, one field: null, or title 1 to 200 characters, status matching the pattern, rate non-negative |
| ProjectSchema.ParseCreate | backend/app/schema/project.py:9 | an omitted status becomes "idea"; a given one is kept |
| ProjectSchema.StatusPatternIsChoices | backend/app/models/project.py:9 | the schema pattern admits exactly the five `STATUS_CHOICES`, which are distinct |
| ProjectSchema.Dump | backend/app/schema/project.py:14-19 | exactly the fields that were set, under their keys; empty exactly when nothing was set |
| ProjectSchema.KeysInjective | backend/app/schema/project.py:14-19 | no two update fields share a document key |
| ProjectSchema.DumpLeavesReferencesAlone | backend/app/schema/project.py:14-19 | no update payload can write `client_id`, `user_id` or `created_at` |
| ProjectSchema.ParseStatusUpdate | backend/app/schema/project.py:22-23 | accepted exactly when the status is one of the five, and kept as sent; otherwise a 422 |
| ProjectSchema.CreateIsSound | backend/app/schema/project.py:5-11 | every valid create payload stores a 1 to 200 character title and one of the five statuses |
| ProjectSchema.NullTitleUntitlesProject | backend/app/schema/project.py:15 | as written, `{"title": null}` passes validation and `$set` leaves the project without a title |
| ProjectSchema.NullStatusEscapesChoices | backend/app/schema/project.py:17 | as written, `{"status": null}` passes validation and `$set` leaves a status outside the five |
| ProjectSchema.UpdateKeepsSound | backend/app/schema/project.py:15-17 | with null refused for `title` and `status`, every valid update keeps a sound project sound |
| AuthSchema.RegisterValid | backend/app/schema/auth.py:4-7 | `RegisterRequest`: a password of 8 to 64 characters and a full name of at most 80 |
| AuthSchema.UserResponseHidesSecrets | backend/app/schema/auth.py:15-18 | the public identity depends on neither the password hash nor the timestamps |
| ClientService.Create | backend/app/services/client_service.py:12-21 | a new client owned by the caller, returned exactly as sent with both stamps at `now`; no other record changes |
| ClientService.List | backend/app/services/client_service.py:23-24 | exactly the caller's stored clients the search selects, each once, newest first |
| ClientService.Get | backend/app/services/client_service.py:26-30 | 404 "Client not found" exactly when the caller does not own the id |
| ClientService.Update | backend/app/services/client_service.py:32-40 | empty payload: a read with no write; otherwise the set fields take the sent values and the others, the id, the owner and the creation time are kept; 404 leaves the store as it was |
| ClientService.Delete | backend/app/services/client_service.py:42-45 | 404 exactly when nothing owned was removed; projects are untouched |
| ClientService.CreateThenGet | backend/app/services/client_service.py:12-30 | the creator reads back what create returned, at any later time; anyone else gets 404 |
| ClientService.UpdateKeepsClientsNamed | backend/app/services/client_service.py:32-40 | with null refused for `name`, every update keeps every stored client named |
| ClientService.DeleteThenGet | backend/app/services/client_service.py:26-45 | after delete the client is 404 to its owner, and every other client reads as before |
| ProjectService.Create | backend/app/services/project_service.py:18-32 | "Client not found" exactly when the caller does not own the named client, with no write; otherwise the new project exactly as sent |
| ProjectService.List | backend/app/services/project_service.py:34-35 | exactly the caller's stored projects (of the named client), each once, newest first |
| ProjectService.Get | backend/app/services/project_service.py:37-41 | 404 "Project not found" exactly when the caller does not own the id |
| ProjectService.Update | backend/app/services/project_service.py:43-51 | empty payload: a read with no write; otherwise the set fields take the sent values and the rest, the client and the owner are kept; the project returned is the one now stored, still owned by the caller; 404 leaves the store as it was |
| ProjectService.UpdateStatus | backend/app/services/project_service.py:53-57 | 404 for a project the caller does not own, with no write; otherwise only the stored status and `updated_at` of that project are replaced, every other project is kept, and the project returned is the old one with those two replaced |
| ProjectService.UpdateStatusRequest | backend/app/schema/project.py:22-23 | an invalid status answers 422 with no write; a valid one is exactly `update_status` |
| ProjectService.Delete | backend/app/services/project_service.py:59-62 | 404 exactly when nothing owned was removed |
| ProjectService.UpdateKeepsProjectsSound | backend/app/services/project_service.py:43-51 | with null refused for `title` and `status`, every update keeps every stored project sound |
| ProjectService.CreateThenGet | backend/app/services/project_service.py:18-41 | the creator reads back what create returned |
| ProjectService.DeleteThenGet | backend/app/services/project_service.py:37-62 | after delete the project is 404 to its owner, and every other project reads as before |
| ProjectService.CreateKeepsReferences | backend/app/services/project_service.py:19-21 | creation keeps every project pointing at a client of its own owner |
| ProjectService.UpdateKeepsOwnerAndClient | backend/app/services/project_service.py:43-51 | no update moves any project to another client or owner |
| ProjectService.UpdateKeepsReferences | backend/app/services/project_service.py:43-51 | updates keep every project pointing at a client of its own owner |
| ProjectService.ClientDeleteCanOrphanProject | backend/app/services/client_service.py:42-45 | deleting a client succeeds even while a project names it, so the reference can dangle |
| Security.LawsCanHold | backend/app/core/security.py:13-33 | some codec meets all three laws (a password verifies against its hash; an issued token decodes to its subject until its `exp` and not after; a decoded `sub` is a string when present), so the lemmas assuming them have instances |
| Dependencies.GetCurrentUser | backend/app/core/dependencies.py:8-28 | checks run in order: no cookie gives "Not authenticated"; a token that does not decode at the current clock reading (forged, malformed or expired) or a falsy `sub` gives "Invalid token"; a string `sub` naming no stored user gives "User not found"; a truthy `sub` that is not a string would make the lookup raise, answered 500, but under the subject law (python-jose refuses a non-string `sub` while decoding) that 500 never happens. Succeeds exactly when the token names a stored user, returning that user's public identity |
| Dependencies.UnknownSubjectRejected | backend/app/core/dependencies.py:24-26 | an unexpired token for an id nobody is stored under is refused with "User not found" |
| Dependencies.ExpiredTokenRejected | backend/app/core/dependencies.py:15-18 | a token presented after its expiry time is refused with "Invalid token", whatever it names |
| AuthService.Register | backend/app/services/auth_service.py:17-27 | 409 exactly when the email is taken, with no write; otherwise one new user holding the email alone, with the hash of the password |
| AuthService.Authenticate | backend/app/services/auth_service.py:29-33 | the one 401 "Invalid credentials" for an unknown email or a wrong password; succeeds for the sole holder of the email exactly when the password verifies |
| AuthService.RegisterThenAuthenticate | backend/app/services/auth_service.py:17-33 | logging in with the credentials just registered returns the registered user |
| AuthService.LoginResponse | backend/app/services/auth_service.py:35-47 | the public identity, a token for the user's id expiring the configured minutes after `now` (security.py:21-25), and an http-only lax `access_token` cookie holding it; secure only in production; max age of the same span in seconds |
| AuthService.LogoutCookie | backend/app/services/auth_service.py:49-51 | the `access_token` cookie with a non-positive max age |
| AuthService.DefaultLoginCookie | backend/app/core/settings.py:7-12 | with the default settings (development, 60 minutes) the token expires 3600 seconds after login, the cookie's max age is 3600 seconds, and it is not marked secure |
| AuthService.LoginCookieSignsIn | backend/app/services/auth_service.py:35-47 | for every clock reading up to the configured minutes after login, the cookie login sets makes the guard answer with the identity login returned |
| AuthService.SessionExpires | backend/app/services/auth_service.py:35-47 | once the configured minutes have passed, the browser no longer sends the cookie ("Not authenticated"), and the token itself is refused as "Invalid token" |
| AuthService.LogoutSignsOut | backend/app/services/auth_service.py:49-51 | after logout, at any later time, the guard answers "Not authenticated" |

## Left out

- Search semantics: the search term is a MongoDB regular expression with the `i` option. The model reads it as a literal substring and folds case for ASCII letters only. Regular-expression metacharacters and Unicode case folding are not modelled.
- AuthSchema.RegisterValid: the password and full-name bounds are recorded as the request schema states them. No operation depends on them, because the service receives requests the framework has already validated.
- Email format: `EmailStr` validation is not modelled. Emails are plain strings, and the email an operation receives is the one pydantic returns. `EmailStr` normalises the address: it strips surrounding whitespace, reduces "Name <addr>" to the address and lower-cases the domain. So in the source "bob@EXAMPLE.com" collides with "bob@example.com" in `register`'s duplicate check and is stored as "bob@example.com". The model sees only the normalised strings.
- ObjectId parsing: a malformed id makes `ObjectId(...)` raise, which answers 500 rather than 404. Ids are modelled as strings, and a malformed id is simply absent.
- Id spelling: `ObjectId(...)` reads hex without regard to case, so the source finds the document stored under "507f1f77bcf86cd799439011" when asked for "507F1F77BCF86CD799439011". The model compares ids as exact strings in their lower-case spelling, the one the database hands out. Any other spelling of a stored id is modelled as absent, so `get_by_id`, `update`, `update_status` and `delete` answer None (and the services 404) where the source would find the record. This applies to client_repository.py:22, :42 and :52, to project_repository.py:22 and to user_repository.py:26.
- ProjectService.CreateKeepsReferences: holds for ids in their lower-case spelling only. In the source, `create` checks an upper-case `client_id` through `ObjectId` (so the client is found) but stores the string as sent. A later `list_by_user(owner, client.id)` then compares strings exactly (project_repository.py:27-28) and never lists that project. The model cannot show this, because it treats the upper-case spelling as a missing client.
- Concurrency: the check-then-insert in `register` and in project `create` runs unguarded, and concurrent requests can race. Each operation is modelled as one atomic step.
- Dependencies.GetCurrentUser: JWT signing and HS256 live in python-jose and are not part of this model. The codec is an abstract parameter. A forged token is one it may fail to decode, and an expired one is one it must fail to decode (the token law). The cookie's lifetime is modelled as the browser keeping it for `max_age` seconds. The token's `exp` is counted from the same clock reading as the login itself, where the source reads `datetime.now` once more. The `expires_delta` argument of `create_access_token` is never passed and is not modelled.
- Password hashing: bcrypt is an abstract parameter with the one law that a password verifies against its own hash.
- Sort order: MongoDB orders mixed BSON types across types, and ties sort in no fixed order. The model sorts on the `created_at` clock reading, reads a non-datetime value as 0, and leaves the order among ties open.
- `hourly_rate`: floating-point behaviour is not modelled; the rate is a real number.
- Clock precision: MongoDB stores datetimes to the millisecond. The clock is an abstract natural number, so there is no truncation.
- UserRepository.GetByEmail: which of several users sharing an email `find_one` returns is left as a nondeterministic choice.
- ClientService.Update: idempotence is proved for the stored collection only (`ClientRepository.UpdateIdempotent`). The returned entity after a repeat is not compared, because the clock readings differ. The same holds for ProjectService.Update.
- Controllers, routes, the application factory, CORS, database connection and settings loading are not part of this model. Neither is the frontend. The project router is never mounted, and the frontend's extra `client_id` on project update is dropped by the schema.
- The response schemas' string conversion of datetimes and ids is not modelled. Responses carry the values as stored.

## Findings

| source | as written | input that shows it | evidently intended | confidence | as-written member | corrected member |
|---|---|---|---|---|---|---|
| backend/app/schema/client.py:13 | `name` of `ClientUpdate` is optional with default `None`, so an explicit JSON null passes the length check and is `$set` | `PUT` with body `{"name": null}` on an owned client | `name` may be omitted but not cleared, since `ClientCreate` and `ClientResponse` require it | not executed | ClientSchema.NullNameUnnamesClient | ClientSchema.UpdateKeepsNamed, ClientService.UpdateKeepsClientsNamed |
| backend/app/schema/project.py:15-17 | `title` and `status` of `ProjectUpdate` accept an explicit null, which bypasses the length and pattern checks and is `$set` | `PUT` with body `{"status": null}` on an owned project | a project keeps a title and one of the five statuses, as `ProjectCreate` and `ProjectResponse` require | not executed | ProjectSchema.NullStatusEscapesChoices, ProjectSchema.NullTitleUntitlesProject | ProjectSchema.UpdateKeepsSound, ProjectService.UpdateKeepsProjectsSound |

=== FILE: auth.dfy ===
/** The password hashing and token signing the application delegates to
    passlib (bcrypt) and python-jose (HS256 JWTs), as functions the caller
    supplies, with the laws the rest of the application relies on. */
module Security {
  import opened Documents

  /** `hash_password`, `verify_password`, `jwt.encode` and
      `decode_access_token`. `encode` signs a token for a subject and an
      expiry time `exp`; `decode` yields the token's payload at a clock
      reading, or `None` where python-jose raises (a bad signature, a
      malformed token, or one whose `exp` has passed). Clock readings and
      `exp` count seconds. */
  datatype Crypto = Crypto(
    hash: string -> string,
    verify: (string, Value) -> bool,
    encode: (Value, int) -> string,
    decode: (string, nat) -> Option<Doc>)

  /** `create_access_token` at clock reading `now`: the token for `subject`
      expires `minutes` after it is made. */
  function AccessToken(k: Crypto, subject: Value, minutes: int, now: nat): string
  {
    k.encode(subject, now + minutes * 60)
  }

  /** The password law: a password verifies against its own hash. */
  ghost predicate HashLawful(k: Crypto)
  {
    forall p :: k.verify(p, Str(k.hash(p)))
  }

  /** The token law, for the string subjects `create_access_token` is given:
      a token is non-empty; it decodes exactly while the clock has not passed
      its `exp` (python-jose rejects `exp < now`), and then to a payload whose
      `sub` is the subject. */
  ghost predicate TokenLawful(k: Crypto)
  {
    && (forall s: string, exp: int :: k.encode(Str(s), exp) != "")
    && (forall s: string, exp: int, now: nat ::
          (k.decode(k.encode(Str(s), exp), now).Some? <==> now <= exp) &&
          (now <= exp ==> Get(k.decode(k.encode(Str(s), exp), now).value, "sub", Null) == Str(s)))
  }

  /** The subject law: python-jose checks the `sub` claim while decoding and
      raises when it is present but not a string, so a payload that decodes
      carries a string `sub` or none at all. */
  ghost predicate SubjectLawful(k: Crypto)
  {
    forall t: string, now: nat :: k.decode(t, now).Some? && "sub" in k.decode(t, now).value ==>
      k.decode(t, now).value["sub"].Str?
  }

  ghost predicate Lawful(k: Crypto)
  {
    HashLawful(k) && TokenLawful(k) && SubjectLawful(k)
  }

  /** `n` tally marks: the toy codec's way of writing an expiry time. */
  function Tally(n: nat): (t: string)
    ensures |t| == n && forall i :: 0 <= i < n ==> t[i] == 'e'
  {
    if n == 0 then "" else "e" + Tally(n - 1)
  }

  /** The number of tally marks a string starts with. */
  function CountTally(t: string): (n: nat)
    ensures n <= |t| && forall i :: 0 <= i < n ==> t[i] == 'e'
    ensures n < |t| ==> t[n] != 'e'
  {
    if |t| > 0 && t[0] == 'e' then 1 + CountTally(t[1..]) else 0
  }

  /** Tally marks read back as the number written, whatever follows them
      as long as it does not start with another mark. */
  lemma {:induction false} TallyReadsBack(n: nat, rest: string)
    requires |rest| > 0 && rest[0] != 'e'
    ensures CountTally(Tally(n) + rest) == n
  {
    if n > 0 {
      assert Tally(n) + rest == "e" + (Tally(n - 1) + rest);
      assert (Tally(n) + rest)[1..] == Tally(n - 1) + rest;
      TallyReadsBack(n - 1, rest);
    }
  }

  /** The toy decoder: tally marks for `exp`, a `t`, then the subject. */
  function ToyDecode(t: string, now: nat): Option<Doc>
  {
    var n := CountTally(t);
    if n < |t| && t[n] == 't' && now <= n then Some(map["sub" := Str(t[n + 1..])]) else None
  }

  /** A toy codec: the hash is the password itself, and a token is the
      expiry time in tally marks, a `t` and the subject; a token that has
      expired before the clock starts is the single letter `x`. */
  function ToyCrypto(): Crypto
  {
    Crypto(
      (p: string) => p,
      (p: string, v: Value) => v == Str(p),
      (v: Value, exp: int) => if exp < 0 then "x" else Tally(exp) + "t" + (if v.Str? then v.s else ""),
      (t: string, now: nat) => ToyDecode(t, now))
  }

  /** The laws can be met: the toy codec keeps all three of them, so the
      lemmas assuming them are not vacuous. */
  lemma LawsCanHold()
    ensures Lawful(ToyCrypto())
  {
    var k := ToyCrypto();
    forall s: string, exp: int, now: nat
      ensures (k.decode(k.encode(Str(s), exp), now).Some? <==> now <= exp) &&
              (now <= exp ==> Get(k.decode(k.encode(Str(s), exp), now).value, "sub", Null) == Str(s))
    {
      if exp >= 0 {
        var t := k.encode(Str(s), exp);
        assert t == Tally(exp) + ("t" + s);
        TallyReadsBack(exp, "t" + s);
        assert t[exp] == 't' && t[exp + 1..] == s;
      }
    }
  }
}

/** `get_current_user`: the guard in front of every client and project
    operation. It turns the `access_token` cookie into the signed-in user's
    public identity, or a 401. */
module Dependencies {
  import opened Documents
  import opened Database
  import opened UserModel
  import opened AuthSchema
  import opened Security
  import UserRepository

  const NotAuthenticated := HttpError(401, "Not authenticated")
  const InvalidToken := HttpError(401, "Invalid token")
  const UserNotFound := HttpError(401, "User not found")

  /** An exception the guard does not catch, as the framework answers it. */
  const ServerError := HttpError(500, "Internal Server Error")

  /** The cookie is a token that decodes at clock reading `now` to a payload
      naming stored user `id`. */
  predicate SignedInAs(users: Collection, k: Crypto, accessToken: Option<string>, id: Id, now: nat)
  {
    && accessToken.Some? && accessToken.value != ""
    && k.decode(accessToken.value, now).Some?
    && Get(k.decode(accessToken.value, now).value, "sub", Null) == Str(id)
    && id in users
  }

  /** The checks in order: a cookie, a token that decodes, a truthy `sub`, a
      user under that id. A `sub` that is not a string would make the id
      lookup raise, which nothing catches; under the subject law python-jose
      has already refused such a token, so that branch is never taken. */
  function GetCurrentUser(users: Collection, k: Crypto, accessToken: Option<string>, now: nat): (r: Result<UserResponse>)
    requires UserRepository.Valid(users)
    ensures accessToken.None? || accessToken.value == "" ==> r == Err(NotAuthenticated)
    ensures accessToken.Some? && accessToken.value != "" && k.decode(accessToken.value, now).None? ==>
      r == Err(InvalidToken)
    ensures (accessToken.Some? && accessToken.value != "" && k.decode(accessToken.value, now).Some? &&
             !Truthy(Get(k.decode(accessToken.value, now).value, "sub", Null))) ==> r == Err(InvalidToken)
    ensures (accessToken.Some? && accessToken.value != "" && k.decode(accessToken.value, now).Some? &&
             Truthy(Get(k.decode(accessToken.value, now).value, "sub", Null)) &&
             !Get(k.decode(accessToken.value, now).value, "sub", Null).Str?) ==> r == Err(ServerError)
    ensures (accessToken.Some? && accessToken.value != "" && k.decode(accessToken.value, now).Some? &&
             Get(k.decode(accessToken.value, now).value, "sub", Null).Str? &&
             Truthy(Get(k.decode(accessToken.value, now).value, "sub", Null)) &&
             Get(k.decode(accessToken.value, now).value, "sub", Null).s !in users) ==> r == Err(UserNotFound)
    ensures r.Ok? <==> exists id :: SignedInAs(users, k, accessToken, id, now)
    ensures forall id :: SignedInAs(users, k, accessToken, id, now) ==>
      r == Ok(ToUserResponse(UserRepository.Entity(users, id, now)))
    ensures r.Err? ==> r.error in {NotAuthenticated, InvalidToken, UserNotFound, ServerError}
    ensures SubjectLawful(k) ==> r != Err(ServerError)
  {
    if accessToken.None? || accessToken.value == "" then
      Err(NotAuthenticated)
    else
      match k.decode(accessToken.value, now)
      case None => Err(InvalidToken)
      case Some(payload) =>
        var sub := Get(payload, "sub", Null);
        if !Truthy(sub) then Err(InvalidToken)
        else if !sub.Str? then Err(ServerError)
        else
          match UserRepository.GetById(users, sub.s, now)
          case None => Err(UserNotFound)
          case Some(u) =>
            assert SignedInAs(users, k, accessToken, sub.s, now);
            Ok(ToUserResponse(u))
  }

  /** A token for a subject nobody is stored under answers "User not found"
      while it is unexpired: deleting or never creating the user revokes
      every token issued for it. */
  lemma UnknownSubjectRejected(users: Collection, k: Crypto, id: Id, exp: int, now: nat)
    requires UserRepository.Valid(users) && Lawful(k) && id != "" && id !in users
    requires now <= exp
    ensures GetCurrentUser(users, k, Some(k.encode(Str(id), exp)), now) == Err(UserNotFound)
  {
    assert k.encode(Str(id), exp) != "";
    assert Get(k.decode(k.encode(Str(id), exp), now).value, "sub", Null) == Str(id);
  }

  /** A token whose expiry time has passed answers "Invalid token", whoever
      it names and whatever the store holds. */
  lemma ExpiredTokenRejected(users: Collection, k: Crypto, id: Id, exp: int, now: nat)
    requires UserRepository.Valid(users) && Lawful(k)
    requires exp < now
    ensures GetCurrentUser(users, k, Some(k.encode(Str(id), exp)), now) == Err(InvalidToken)
  {
    assert k.encode(Str(id), exp) != "";
    assert k.decode(k.encode(Str(id), exp), now).None?;
  }
}

/** `AuthService`: registration, login and the session cookie. */
module AuthService {
  import opened Documents
  import opened Database
  import opened UserModel
  import opened AuthSchema
  import opened Security
  import UserRepository
  import Dependencies

  const EmailRegistered := HttpError(409, "Email already registered")
  const InvalidCredentials := HttpError(401, "Invalid credentials")

  /** `id` is the only stored user with this email. */
  predicate SoleHolder(users: Collection, email: string, id: Id)
  {
    id in users && UserRepository.HasEmail(users[id], email) &&
    forall k :: k in users && UserRepository.HasEmail(users[k], email) ==> k == id
  }

  /** `register`: refused with 409 when the email is stored already; otherwise
      a new user whose stored password is the hash of the one sent. */
  method Register(users: Collection, k: Crypto, p: RegisterRequest, newId: Id, now: nat)
    returns (users': Collection, r: Result<User>)
    requires UserRepository.Valid(users) && newId !in users && newId != ""
    ensures UserRepository.Valid(users')
    ensures r.Err? <==> UserRepository.EmailTaken(users, p.email)
    ensures r.Err? ==> users' == users && r.error == EmailRegistered
    ensures r.Ok? ==>
      && users'.Keys == users.Keys + {newId}
      && (forall id :: id in users ==> users'[id] == users[id])
      && users'[newId]["password_hash"] == Str(k.hash(p.password))
      && SoleHolder(users', p.email, newId)
      && r.value == UserRepository.Entity(users', newId, now)
      && r.value.email == Str(p.email) && r.value.fullName == Nullable(p.fullName)
  {
    var existing := UserRepository.GetByEmail(users, p.email, now);
    if existing.Some? {
      return users, Err(EmailRegistered);
    }
    var document := ToDocument(p.email, k.hash(p.password), p.fullName, now);
    var ins := UserRepository.Insert(users, document, newId, now);
    users' := ins.0;
    r := Ok(ins.1);
  }

  /** `authenticate`: the same 401 whether no user has the email or the
      password does not verify; otherwise a stored user with that email. */
  method Authenticate(users: Collection, k: Crypto, p: LoginRequest, now: nat) returns (r: Result<User>)
    requires UserRepository.Valid(users)
    ensures r.Err? ==> r.error == InvalidCredentials
    ensures !UserRepository.EmailTaken(users, p.email) ==> r.Err?
    ensures r.Ok? ==>
      && r.value.id.Str? && r.value.id.s in users
      && UserRepository.HasEmail(users[r.value.id.s], p.email)
      && r.value == UserRepository.Entity(users, r.value.id.s, now)
      && k.verify(p.password, r.value.passwordHash)
    ensures forall id :: SoleHolder(users, p.email, id) ==>
      (r.Ok? <==> k.verify(p.password, users[id]["password_hash"]))
  {
    var user := UserRepository.GetByEmail(users, p.email, now);
    if user.None? || !k.verify(p.password, user.value.passwordHash) {
      r := Err(InvalidCredentials);
    } else {
      r := Ok(user.value);
    }
  }

  /** Registering and then logging in with the same email and password signs
      in as the user just registered. */
  method RegisterThenAuthenticate(users: Collection, k: Crypto, p: RegisterRequest, newId: Id, now: nat)
    returns (users': Collection, registered: Result<User>, login: Result<User>)
    requires UserRepository.Valid(users) && newId !in users && newId != "" && HashLawful(k)
    ensures registered.Ok? ==> login == registered
    ensures registered.Err? ==> users' == users
  {
    users', registered := Register(users, k, p, newId, now);
    login := Authenticate(users', k, LoginRequest(p.email, p.password), now);
    if registered.Ok? {
      assert k.verify(p.password, users'[newId]["password_hash"]);
    }
  }

  /** The settings `login_response` reads. */
  datatype Settings = Settings(environment: string, accessTokenExpireMinutes: int)

  /** The defaults when nothing overrides them. */
  const DefaultSettings := Settings("development", 60)

  /** With the default settings the session cookie and its token live an
      hour, and the cookie is sent over plain HTTP too. */
  lemma DefaultLoginCookie(k: Crypto, u: User, now: nat)
    ensures LoginResponse(DefaultSettings, k, u, now).2.maxAge == 3600
    ensures LoginResponse(DefaultSettings, k, u, now).1 == k.encode(u.id, now + 3600)
    ensures !LoginResponse(DefaultSettings, k, u, now).2.secure
  {
  }

  /** A `Set-Cookie` header. */
  datatype Cookie = Cookie(
    key: string, value: string, httpOnly: bool, sameSite: string, secure: bool, maxAge: int)

  /** `login_response` at clock reading `now`: the public identity, the
      token for the user's id, which expires after the configured minutes,
      and the cookie carrying it for as many seconds. */
  function LoginResponse(s: Settings, k: Crypto, u: User, now: nat): (r: (UserResponse, string, Cookie))
    ensures r.0 == ToUserResponse(u)
    ensures r.1 == k.encode(u.id, now + s.accessTokenExpireMinutes * 60)
    ensures r.2.key == "access_token" && r.2.value == r.1
    ensures r.2.httpOnly && r.2.sameSite == "lax"
    ensures r.2.secure <==> s.environment == "production"
    ensures r.2.maxAge == s.accessTokenExpireMinutes * 60
  {
    var token := AccessToken(k, u.id, s.accessTokenExpireMinutes, now);
    (ToUserResponse(u), token,
     Cookie("access_token", token, true, "lax", s.environment == "production",
            s.accessTokenExpireMinutes * 60))
  }

  /** `logout_response`: Starlette's `delete_cookie`, an empty cookie that
      expires at once. */
  function LogoutCookie(): (c: Cookie)
    ensures c.key == "access_token" && c.maxAge <= 0
  {
    Cookie("access_token", "", false, "lax", false, 0)
  }

  /** The `access_token` a browser sends `elapsed` seconds after storing `c`:
      a cookie whose `Max-Age` is not positive is removed at once, and any
      other once its expiry time is in the past (sections 5.2.2 and 5.3 of
      RFC 6265). */
  function Sent(c: Cookie, elapsed: nat): (token: Option<string>)
    requires c.key == "access_token"
    ensures token.Some? <==> 0 < c.maxAge && elapsed <= c.maxAge
    ensures token.Some? ==> token.value == c.value
  {
    if c.maxAge <= 0 || elapsed > c.maxAge then None else Some(c.value)
  }

  /** The cookie a login sets signs the browser in as that user for as long
      as the session lasts: within the configured minutes the guard answers
      with the identity the login returned. */
  lemma LoginCookieSignsIn(users: Collection, s: Settings, k: Crypto, id: Id, now: nat, later: nat)
    requires UserRepository.Valid(users) && id in users && Lawful(k)
    requires s.accessTokenExpireMinutes > 0 && now <= later
    ensures var login := LoginResponse(s, k, UserRepository.Entity(users, id, now), now);
            later - now <= s.accessTokenExpireMinutes * 60 ==>
            Dependencies.GetCurrentUser(users, k, Sent(login.2, later - now), later) == Ok(login.0)
  {
    if later - now <= s.accessTokenExpireMinutes * 60 {
      var exp := now + s.accessTokenExpireMinutes * 60;
      var token := k.encode(Str(id), exp);
      assert token != "";
      assert Get(k.decode(token, later).value, "sub", Null) == Str(id);
      assert Dependencies.SignedInAs(users, k, Some(token), id, later);
    }
  }

  /** The session ends when the configured minutes are up: the browser drops
      the cookie and the guard answers "Not authenticated", and the token
      itself, presented after its expiry time, answers "Invalid token". */
  lemma SessionExpires(users: Collection, s: Settings, k: Crypto, id: Id, now: nat, later: nat)
    requires UserRepository.Valid(users) && id in users && Lawful(k)
    requires now <= later && now + s.accessTokenExpireMinutes * 60 < later
    ensures var login := LoginResponse(s, k, UserRepository.Entity(users, id, now), now);
            Dependencies.GetCurrentUser(users, k, Sent(login.2, later - now), later) == Err(Dependencies.NotAuthenticated)
    ensures var login := LoginResponse(s, k, UserRepository.Entity(users, id, now), now);
            Dependencies.GetCurrentUser(users, k, Some(login.1), later) == Err(Dependencies.InvalidToken)
  {
    Dependencies.ExpiredTokenRejected(users, k, id, now + s.accessTokenExpireMinutes * 60, later);
  }

  /** After logout the browser sends no token and the guard answers
      "Not authenticated", whatever the store, the keys and the time. */
  lemma LogoutSignsOut(users: Collection, k: Crypto, elapsed: nat, now: nat)
    requires UserRepository.Valid(users)
    ensures Dependencies.GetCurrentUser(users, k, Sent(LogoutCookie(), elapsed), now) == Err(Dependencies.NotAuthenticated)
  {
  }
}

=== FILE: documents.dfy ===
/** The document layer every collection shares: the dynamically typed field
    values a MongoDB document holds as the driver hands them to Python,
    `dict.get` and Python truthiness, and the HTTP failures the services raise. */
module Documents {

  /** A document id or a user id: the lower-case hex string of a MongoDB
      ObjectId. Ids are compared as exact strings; `ObjectId(...)` also
      accepts upper-case hex, which this model does not. */
  type Id = string

  datatype Option<+T> = None | Some(value: T)

  /** A field value. `Null` is Python's `None`, `Num` a float, `Time` a
      `datetime` given as a clock reading. */
  datatype Value = Null | Str(s: string) | Num(r: real) | Time(t: nat)

  /** A document: a dictionary from field name to value. */
  type Doc = map<string, Value>

  /** `d.get(key, default)` */
  function Get(d: Doc, key: string, default: Value): Value
  {
    if key in d then d[key] else default
  }

  /** Python truthiness: `None`, `""` and `0.0` are false, a `datetime` is true. */
  predicate Truthy(v: Value)
  {
    match v
    case Null => false
    case Str(s) => s != ""
    case Num(r) => r != 0.0
    case Time(_) => true
  }

  /** The `id` attribute every model class sets in its constructor: the `_id`
      when it is truthy, the `id` key otherwise. The constructors take
      `str()` of the `_id`; it is kept as is here because every stored `_id`
      is already the string of its key, so `str()` changes nothing. */
  function IdOf(data: Doc): Value
  {
    if Truthy(Get(data, "_id", Null)) then data["_id"] else Get(data, "id", Null)
  }

  /** An optional string argument as it lands in a document. */
  function Nullable(o: Option<string>): Value
  {
    match o
    case None => Null
    case Some(s) => Str(s)
  }

  /** The `HTTPException` a service raises: status code and detail text. */
  datatype HttpError = HttpError(status: nat, detail: string)

  datatype Result<+T> = Ok(value: T) | Err(error: HttpError)
}

/** The three collections of the application database. */
module Database {
  import opened Documents

  /** A collection: document id to document; the `_id` lives in the key. */
  type Collection = map<Id, Doc>

  datatype Db = Db(users: Collection, clients: Collection, projects: Collection)
}

=== FILE: models.dfy ===
/** The `Client` class: the document `to_document` builds for a new client and
    the object the constructor reads back out of a stored document. */
module ClientModel {
  import opened Documents

  /** An instance of `Client`. Python does not enforce the annotations, so every
      attribute holds whatever value the document carried. */
  datatype Client = Client(
    id: Value, userId: Value, name: Value, email: Value, phone: Value,
    company: Value, notes: Value, createdAt: Value, updatedAt: Value)

  /** The keys `to_document` writes. */
  const DocumentKeys: set<string> :=
    {"user_id", "name", "email", "phone", "company", "notes", "created_at", "updated_at"}

  /** `Client.to_document(...)` at clock reading `now`; an optional argument
      that is left out is `None`. */
  function ToDocument(
    userId: Id, name: string, email: Option<string>, phone: Option<string>,
    company: Option<string>, notes: Option<string>, now: nat): (d: Doc)
    ensures d.Keys == DocumentKeys
    ensures d["created_at"] == d["updated_at"] == Time(now)
    ensures d["user_id"] == Str(userId) && d["name"] == Str(name)
    ensures email.None? ==> d["email"] == Null
    ensures phone.None? ==> d["phone"] == Null
    ensures company.None? ==> d["company"] == Null
    ensures notes.None? ==> d["notes"] == Null
    ensures email.Some? ==> d["email"] == Str(email.value)
    ensures phone.Some? ==> d["phone"] == Str(phone.value)
    ensures company.Some? ==> d["company"] == Str(company.value)
    ensures notes.Some? ==> d["notes"] == Str(notes.value)
  {
    map[
      "user_id" := Str(userId), "name" := Str(name),
      "email" := Nullable(email), "phone" := Nullable(phone),
      "company" := Nullable(company), "notes" := Nullable(notes),
      "created_at" := Time(now), "updated_at" := Time(now)]
  }

  /** `Client(data)` at clock reading `now`: `user_id` and `name` are indexed
      (a `KeyError` without them), every other attribute is read with a default. */
  function FromDocument(data: Doc, now: nat): (c: Client)
    requires "user_id" in data && "name" in data
    ensures "_id" in data && Truthy(data["_id"]) ==> c.id == data["_id"]
    ensures !Truthy(Get(data, "_id", Null)) ==> c.id == Get(data, "id", Null)
    ensures c.userId == data["user_id"] && c.name == data["name"]
    ensures "email" !in data ==> c.email == Null
    ensures "phone" !in data ==> c.phone == Null
    ensures "company" !in data ==> c.company == Null
    ensures "notes" !in data ==> c.notes == Null
    ensures "created_at" !in data ==> c.createdAt == Time(now)
    ensures "updated_at" !in data ==> c.updatedAt == Time(now)
  {
    Client(
      IdOf(data), data["user_id"], data["name"],
      Get(data, "email", Null), Get(data, "phone", Null),
      Get(data, "company", Null), Get(data, "notes", Null),
      Get(data, "created_at", Time(now)), Get(data, "updated_at", Time(now)))
  }

  /** A document that carries both timestamps reads back the same at any clock reading. */
  lemma ClockIrrelevantWithTimestamps(data: Doc, now: nat, later: nat)
    requires "user_id" in data && "name" in data
    requires "created_at" in data && "updated_at" in data
    ensures FromDocument(data, now) == FromDocument(data, later)
  {
  }

  /** Round trip: a new document with its fresh id reads back as exactly the
      arguments `to_document` was given, created and updated at the same instant. */
  lemma ReadBackNew(
    id: Id, userId: Id, name: string, email: Option<string>, phone: Option<string>,
    company: Option<string>, notes: Option<string>, now: nat, later: nat)
    requires id != ""
    ensures FromDocument(ToDocument(userId, name, email, phone, company, notes, now)["_id" := Str(id)], later)
         == Client(Str(id), Str(userId), Str(name), Nullable(email), Nullable(phone),
                   Nullable(company), Nullable(notes), Time(now), Time(now))
  {
  }
}

/** The `Project` class: its status vocabulary, the document `to_document`
    builds for a new project and the object the constructor reads back. */
module ProjectModel {
  import opened Documents

  /** `Project.STATUS_CHOICES` */
  const StatusChoices: seq<string> := ["idea", "talks", "in-progress", "review", "completed"]

  const DefaultStatus: string := "idea"

  /** An instance of `Project`. */
  datatype Project = Project(
    id: Value, userId: Value, clientId: Value, title: Value, description: Value,
    status: Value, hourlyRate: Value, deadline: Value, createdAt: Value, updatedAt: Value)

  const DocumentKeys: set<string> :=
    {"user_id", "client_id", "title", "description", "status", "hourly_rate",
     "deadline", "created_at", "updated_at"}

  function RateValue(o: Option<real>): Value
  {
    match o
    case None => Null
    case Some(r) => Num(r)
  }

  function DeadlineValue(o: Option<nat>): Value
  {
    match o
    case None => Null
    case Some(t) => Time(t)
  }

  /** `Project.to_document(...)` at clock reading `now`. `status` is `None` when
      the argument is left out, and then takes its default. */
  function ToDocument(
    userId: Id, clientId: Id, title: string, description: Option<string>,
    status: Option<string>, hourlyRate: Option<real>, deadline: Option<nat>, now: nat): (d: Doc)
    ensures d.Keys == DocumentKeys
    ensures d["created_at"] == d["updated_at"] == Time(now)
    ensures d["user_id"] == Str(userId) && d["client_id"] == Str(clientId) && d["title"] == Str(title)
    ensures status.None? ==> d["status"] == Str("idea")
    ensures status.Some? ==> d["status"] == Str(status.value)
    ensures description.None? ==> d["description"] == Null
    ensures hourlyRate.None? ==> d["hourly_rate"] == Null
    ensures deadline.None? ==> d["deadline"] == Null
    ensures description.Some? ==> d["description"] == Str(description.value)
    ensures hourlyRate.Some? ==> d["hourly_rate"] == Num(hourlyRate.value)
    ensures deadline.Some? ==> d["deadline"] == Time(deadline.value)
  {
    map[
      "user_id" := Str(userId), "client_id" := Str(clientId), "title" := Str(title),
      "description" := Nullable(description),
      "status" := Str(if status.Some? then status.value else DefaultStatus),
      "hourly_rate" := RateValue(hourlyRate), "deadline" := DeadlineValue(deadline),
      "created_at" := Time(now), "updated_at" := Time(now)]
  }

  /** `Project(data)` at clock reading `now`: `user_id`, `client_id` and `title`
      are indexed, a missing status reads as "idea", other attributes as `None`. */
  function FromDocument(data: Doc, now: nat): (p: Project)
    requires "user_id" in data && "client_id" in data && "title" in data
    ensures "_id" in data && Truthy(data["_id"]) ==> p.id == data["_id"]
    ensures !Truthy(Get(data, "_id", Null)) ==> p.id == Get(data, "id", Null)
    ensures p.userId == data["user_id"] && p.clientId == data["client_id"] && p.title == data["title"]
    ensures "status" !in data ==> p.status == Str("idea")
    ensures "description" !in data ==> p.description == Null
    ensures "hourly_rate" !in data ==> p.hourlyRate == Null
    ensures "deadline" !in data ==> p.deadline == Null
    ensures "created_at" !in data ==> p.createdAt == Time(now)
    ensures "updated_at" !in data ==> p.updatedAt == Time(now)
  {
    Project(
      IdOf(data), data["user_id"], data["client_id"], data["title"],
      Get(data, "description", Null), Get(data, "status", Str(DefaultStatus)),
      Get(data, "hourly_rate", Null), Get(data, "deadline", Null),
      Get(data, "created_at", Time(now)), Get(data, "updated_at", Time(now)))
  }

  /** Setting `status` and `updated_at` on a document changes exactly those two
      attributes of the object read from it. */
  lemma StatusPatchReadBack(data: Doc, status: Value, stamp: Value, now: nat)
    requires "user_id" in data && "client_id" in data && "title" in data
    ensures FromDocument(data + map["status" := status, "updated_at" := stamp], now)
         == FromDocument(data, now).(status := status, updatedAt := stamp)
  {
  }

  lemma ClockIrrelevantWithTimestamps(data: Doc, now: nat, later: nat)
    requires "user_id" in data && "client_id" in data && "title" in data
    requires "created_at" in data && "updated_at" in data
    ensures FromDocument(data, now) == FromDocument(data, later)
  {
  }

  /** Round trip: a new project document with its fresh id reads back as the
      arguments of `to_document`, the status defaulted, both stamps equal. */
  lemma ReadBackNew(
    id: Id, userId: Id, clientId: Id, title: string, description: Option<string>,
    status: Option<string>, hourlyRate: Option<real>, deadline: Option<nat>, now: nat, later: nat)
    requires id != ""
    ensures FromDocument(ToDocument(userId, clientId, title, description, status, hourlyRate, deadline, now)["_id" := Str(id)], later)
         == Project(Str(id), Str(userId), Str(clientId), Str(title), Nullable(description),
                    Str(if status.Some? then status.value else "idea"),
                    RateValue(hourlyRate), DeadlineValue(deadline), Time(now), Time(now))
  {
  }
}

/** The `User` class. */
module UserModel {
  import opened Documents

  /** An instance of `User`. */
  datatype User = User(
    id: Value, email: Value, fullName: Value, passwordHash: Value,
    createdAt: Value, updatedAt: Value)

  /** `User.to_document(...)` at clock reading `now`. */
  function ToDocument(email: string, passwordHash: string, fullName: Option<string>, now: nat): (d: Doc)
    ensures d.Keys == {"email", "full_name", "password_hash", "created_at", "updated_at"}
    ensures d["created_at"] == d["updated_at"] == Time(now)
    ensures d["email"] == Str(email) && d["password_hash"] == Str(passwordHash)
    ensures fullName.None? ==> d["full_name"] == Null
    ensures fullName.Some? ==> d["full_name"] == Str(fullName.value)
  {
    map[
      "email" := Str(email), "full_name" := Nullable(fullName),
      "password_hash" := Str(passwordHash),
      "created_at" := Time(now), "updated_at" := Time(now)]
  }

  /** `User(data)`: `email` and `password_hash` are indexed. */
  function FromDocument(data: Doc, now: nat): (u: User)
    requires "email" in data && "password_hash" in data
    ensures "_id" in data && Truthy(data["_id"]) ==> u.id == data["_id"]
    ensures !Truthy(Get(data, "_id", Null)) ==> u.id == Get(data, "id", Null)
    ensures u.email == data["email"] && u.passwordHash == data["password_hash"]
    ensures "full_name" !in data ==> u.fullName == Null
  {
    User(
      IdOf(data),
      data["email"], Get(data, "full_name", Null), data["password_hash"],
      Get(data, "created_at", Time(now)), Get(data, "updated_at", Time(now)))
  }
}

=== FILE: repositories.dfy ===
/** `ClientRepository`: the `clients` collection, every access scoped by owner. */
module ClientRepository {
  import opened Documents
  import opened Database
  import opened ClientModel
  import Scoped
  import Text

  /** Every stored client sits under a non-empty id and carries the keys the
      constructor indexes and the listing sorts on. */
  predicate Valid(c: Collection)
  {
    forall k :: k in c ==> k != "" && "user_id" in c[k] && "name" in c[k] && "created_at" in c[k]
  }

  /** The `Client` object built from stored document `id`. */
  function Entity(c: Collection, id: Id, now: nat): (e: Client)
    requires Valid(c) && id in c
    ensures e.id == Str(id) && e.userId == c[id]["user_id"]
    ensures e.createdAt == c[id]["created_at"]
  {
    FromDocument(c[id]["_id" := Str(id)], now)
  }

  /** `insert`: the database assigns the fresh ObjectId `newId`. */
  function Insert(c: Collection, document: Doc, newId: Id, now: nat): (r: (Collection, Client))
    requires Valid(c) && newId !in c && newId != ""
    requires "_id" !in document
    requires "user_id" in document && "name" in document && "created_at" in document
    ensures Valid(r.0)
    ensures r.0.Keys == c.Keys + {newId} && r.0[newId] == document
    ensures forall k :: k in c ==> r.0[k] == c[k]
    ensures r.1 == Entity(r.0, newId, now)
    ensures r.1.id == Str(newId) && r.1.userId == document["user_id"] && r.1.name == document["name"]
  {
    (c[newId := document], FromDocument(document["_id" := Str(newId)], now))
  }

  /** `get_by_id`: the client only when it exists and belongs to `owner`. */
  function GetById(c: Collection, id: Id, owner: Id, now: nat): (r: Option<Client>)
    requires Valid(c)
    ensures r.Some? <==> Scoped.Owns(c, id, owner)
    ensures r.Some? ==> r.value == Entity(c, id, now) && r.value.userId == Str(owner)
  {
    match Scoped.FindOwned(c, id, owner)
    case None => None
    case Some(d) => Some(FromDocument(d["_id" := Str(id)], now))
  }

  /** Another user's client is indistinguishable from a missing one. */
  lemma ForeignLooksMissing(c: Collection, id: Id, owner: Id, other: Id, now: nat)
    requires Valid(c) && Scoped.Owns(c, id, owner) && other != owner
    ensures GetById(c, id, other, now).None?
    ensures GetById(c, id, other, now) == GetById(c - {id}, id, other, now)
  {
  }

  predicate FieldContains(d: Doc, key: string, term: string)
  {
    key in d && d[key].Str? && Text.ContainsIgnoringCase(d[key].s, term)
  }

  /** A document matches a search term in its name, email or company. */
  predicate MatchesSearch(d: Doc, term: string)
  {
    FieldContains(d, "name", term) || FieldContains(d, "email", term) || FieldContains(d, "company", term)
  }

  /** The query `list_by_user` sends: the owner, and the search only when it is truthy. */
  predicate Listed(d: Doc, owner: Id, search: Option<string>)
  {
    Get(d, "user_id", Null) == Str(owner) &&
    (search.None? || search.value == "" || MatchesSearch(d, search.value))
  }

  /** `list_by_user`: exactly the owner's clients the search selects, each once,
      newest first. */
  method ListByUser(c: Collection, owner: Id, search: Option<string>, now: nat) returns (r: seq<Client>)
    requires Valid(c)
    ensures forall i :: 0 <= i < |r| ==> r[i].userId == Str(owner)
    ensures forall i :: 0 <= i < |r| ==>
      r[i].id.Str? && r[i].id.s in c && Listed(c[r[i].id.s], owner, search) && r[i] == Entity(c, r[i].id.s, now)
    ensures forall k :: k in c && Listed(c[k], owner, search) ==> Entity(c, k, now) in r
    ensures forall i, j :: 0 <= i < j < |r| ==> r[i].id != r[j].id
    ensures forall i, j :: 0 <= i < j < |r| ==> Scoped.Stamp(r[i].createdAt) >= Scoped.Stamp(r[j].createdAt)
  {
    var ks := Scoped.SelectNewestFirst(c, d => Listed(d, owner, search));
    r := seq(|ks|, i requires 0 <= i < |ks| => Entity(c, ks[i], now));
    forall i | 0 <= i < |r|
      ensures r[i] == Entity(c, ks[i], now) && r[i].id == Str(ks[i])
      ensures Scoped.Stamp(r[i].createdAt) == Scoped.CreatedAt(c[ks[i]])
    {
    }
    forall k | k in c && Listed(c[k], owner, search)
      ensures Entity(c, k, now) in r
    {
      var i :| 0 <= i < |ks| && ks[i] == k;
      assert r[i] == Entity(c, k, now);
    }
  }

  /** `update`: `$set` the supplied keys and a fresh `updated_at` on the owned
      document; the re-read client when the write modified it. */
  function Update(c: Collection, id: Id, owner: Id, data: Doc, now: nat): (r: (Collection, Option<Client>))
    requires Valid(c)
    ensures Valid(r.0)
    ensures r.0.Keys == c.Keys
    ensures forall k :: k in c && k != id ==> r.0[k] == c[k]
    ensures !Scoped.Owns(c, id, owner) ==> r.0 == c && r.1.None?
    ensures Scoped.Owns(c, id, owner) ==>
      && r.0[id].Keys == c[id].Keys + data.Keys + {"updated_at"}
      && r.0[id]["updated_at"] == Time(now)
      && (forall key :: key in data && key != "updated_at" ==> r.0[id][key] == data[key])
      && (forall key :: key in c[id] && key !in data && key != "updated_at" ==> r.0[id][key] == c[id][key])
    ensures r.1.Some? <==> Scoped.Owns(c, id, owner) && r.0[id] != c[id] && Scoped.Owns(r.0, id, owner)
    ensures r.1.Some? ==> r.1.value == Entity(r.0, id, now)
    ensures r.1.None? && "user_id" !in data ==> r.0 == c
  {
    var patch := data["updated_at" := Time(now)];
    var w := Scoped.SetOwned(c, id, owner, patch);
    if w.1 then (w.0, GetById(w.0, id, owner, now)) else (w.0, None)
  }

  /** Sending the same update twice leaves the collection as sending it once
      at the later clock reading: the second `$set` overwrites the first. */
  lemma UpdateIdempotent(c: Collection, id: Id, owner: Id, data: Doc, now: nat, later: nat)
    requires Valid(c) && "user_id" !in data
    ensures Update(Update(c, id, owner, data, now).0, id, owner, data, later).0
         == Update(c, id, owner, data, later).0
  {
    var p1 := data["updated_at" := Time(now)];
    var p2 := data["updated_at" := Time(later)];
    Scoped.SetTwice(c, id, owner, p1, p2);
  }

  /** When the clock has moved past the stored `updated_at`, an update of an
      owned client that leaves the owner alone always reports the client. */
  lemma UpdateFindsOwned(c: Collection, id: Id, owner: Id, data: Doc, now: nat)
    requires Valid(c) && "user_id" !in data
    ensures Scoped.Owns(c, id, owner) && Get(c[id], "updated_at", Null) != Time(now) ==>
      Update(c, id, owner, data, now).1.Some?
  {
    if Scoped.Owns(c, id, owner) {
      var r := Update(c, id, owner, data, now);
      assert r.0[id]["updated_at"] == Time(now);
    }
  }

  /** `delete`: true exactly when an owned client was removed; nothing else changes. */
  function Delete(c: Collection, id: Id, owner: Id): (r: (Collection, bool))
    requires Valid(c)
    ensures Valid(r.0)
    ensures r.1 <==> Scoped.Owns(c, id, owner)
    ensures r.1 ==> r.0.Keys == c.Keys - {id}
    ensures !r.1 ==> r.0 == c
    ensures forall k :: k in r.0 ==> r.0[k] == c[k]
  {
    Scoped.DeleteOwned(c, id, owner)
  }
}

/** `ProjectRepository`: the `projects` collection, every access scoped by owner. */
module ProjectRepository {
  import opened Documents
  import opened Database
  import opened ProjectModel
  import Scoped

  predicate Valid(c: Collection)
  {
    forall k :: k in c ==>
      k != "" && "user_id" in c[k] && "client_id" in c[k] && "title" in c[k] && "created_at" in c[k]
  }

  /** The `Project` object built from stored document `id`. */
  function Entity(c: Collection, id: Id, now: nat): (e: Project)
    requires Valid(c) && id in c
    ensures e.id == Str(id) && e.userId == c[id]["user_id"] && e.clientId == c[id]["client_id"]
    ensures e.createdAt == c[id]["created_at"]
  {
    FromDocument(c[id]["_id" := Str(id)], now)
  }

  /** `insert`: the database assigns the fresh ObjectId `newId`. */
  function Insert(c: Collection, document: Doc, newId: Id, now: nat): (r: (Collection, Project))
    requires Valid(c) && newId !in c && newId != ""
    requires "_id" !in document
    requires "user_id" in document && "client_id" in document && "title" in document
    requires "created_at" in document
    ensures Valid(r.0)
    ensures r.0.Keys == c.Keys + {newId} && r.0[newId] == document
    ensures forall k :: k in c ==> r.0[k] == c[k]
    ensures r.1 == Entity(r.0, newId, now)
    ensures r.1.id == Str(newId) && r.1.userId == document["user_id"] && r.1.clientId == document["client_id"]
  {
    (c[newId := document], FromDocument(document["_id" := Str(newId)], now))
  }

  /** `get_by_id`: the project only when it exists and belongs to `owner`. */
  function GetById(c: Collection, id: Id, owner: Id, now: nat): (r: Option<Project>)
    requires Valid(c)
    ensures r.Some? <==> Scoped.Owns(c, id, owner)
    ensures r.Some? ==> r.value == Entity(c, id, now) && r.value.userId == Str(owner)
  {
    match Scoped.FindOwned(c, id, owner)
    case None => None
    case Some(d) => Some(FromDocument(d["_id" := Str(id)], now))
  }

  lemma ForeignLooksMissing(c: Collection, id: Id, owner: Id, other: Id, now: nat)
    requires Valid(c) && Scoped.Owns(c, id, owner) && other != owner
    ensures GetById(c, id, other, now).None?
    ensures GetById(c, id, other, now) == GetById(c - {id}, id, other, now)
  {
  }

  /** The query `list_by_user` sends: the owner, and the client only when it is truthy. */
  predicate Listed(d: Doc, owner: Id, clientId: Option<Id>)
  {
    Get(d, "user_id", Null) == Str(owner) &&
    (clientId.None? || clientId.value == "" || Get(d, "client_id", Null) == Str(clientId.value))
  }

  /** `list_by_user`: exactly the owner's projects (of the given client, when
      one is given), each once, newest first. */
  method ListByUser(c: Collection, owner: Id, clientId: Option<Id>, now: nat) returns (r: seq<Project>)
    requires Valid(c)
    ensures forall i :: 0 <= i < |r| ==> r[i].userId == Str(owner)
    ensures clientId.Some? && clientId.value != "" ==>
      forall i :: 0 <= i < |r| ==> r[i].clientId == Str(clientId.value)
    ensures forall i :: 0 <= i < |r| ==>
      r[i].id.Str? && r[i].id.s in c && Listed(c[r[i].id.s], owner, clientId) && r[i] == Entity(c, r[i].id.s, now)
    ensures forall k :: k in c && Listed(c[k], owner, clientId) ==> Entity(c, k, now) in r
    ensures forall i, j :: 0 <= i < j < |r| ==> r[i].id != r[j].id
    ensures forall i, j :: 0 <= i < j < |r| ==> Scoped.Stamp(r[i].createdAt) >= Scoped.Stamp(r[j].createdAt)
  {
    var ks := Scoped.SelectNewestFirst(c, d => Listed(d, owner, clientId));
    r := seq(|ks|, i requires 0 <= i < |ks| => Entity(c, ks[i], now));
    forall i | 0 <= i < |r|
      ensures r[i] == Entity(c, ks[i], now) && r[i].id == Str(ks[i])
      ensures Scoped.Stamp(r[i].createdAt) == Scoped.CreatedAt(c[ks[i]])
    {
    }
    forall k | k in c && Listed(c[k], owner, clientId)
      ensures Entity(c, k, now) in r
    {
      var i :| 0 <= i < |ks| && ks[i] == k;
      assert r[i] == Entity(c, k, now);
    }
  }

  /** `update`: `$set` the supplied keys and a fresh `updated_at` on the owned
      document; the re-read project when the write modified it. */
  function Update(c: Collection, id: Id, owner: Id, data: Doc, now: nat): (r: (Collection, Option<Project>))
    requires Valid(c)
    ensures Valid(r.0)
    ensures r.0.Keys == c.Keys
    ensures forall k :: k in c && k != id ==> r.0[k] == c[k]
    ensures !Scoped.Owns(c, id, owner) ==> r.0 == c && r.1.None?
    ensures Scoped.Owns(c, id, owner) ==>
      && r.0[id].Keys == c[id].Keys + data.Keys + {"updated_at"}
      && r.0[id]["updated_at"] == Time(now)
      && (forall key :: key in data && key != "updated_at" ==> r.0[id][key] == data[key])
      && (forall key :: key in c[id] && key !in data && key != "updated_at" ==> r.0[id][key] == c[id][key])
    ensures r.1.Some? <==> Scoped.Owns(c, id, owner) && r.0[id] != c[id] && Scoped.Owns(r.0, id, owner)
    ensures r.1.Some? ==> r.1.value == Entity(r.0, id, now)
    ensures r.1.None? && "user_id" !in data ==> r.0 == c
  {
    var patch := data["updated_at" := Time(now)];
    var w := Scoped.SetOwned(c, id, owner, patch);
    if w.1 then (w.0, GetById(w.0, id, owner, now)) else (w.0, None)
  }

  /** Sending the same update twice leaves the collection as sending it once
      at the later clock reading: the second `$set` overwrites the first. */
  lemma UpdateIdempotent(c: Collection, id: Id, owner: Id, data: Doc, now: nat, later: nat)
    requires Valid(c) && "user_id" !in data
    ensures Update(Update(c, id, owner, data, now).0, id, owner, data, later).0
         == Update(c, id, owner, data, later).0
  {
    var p1 := data["updated_at" := Time(now)];
    var p2 := data["updated_at" := Time(later)];
    Scoped.SetTwice(c, id, owner, p1, p2);
  }

  /** When the clock has moved past the stored `updated_at`, an update of an
      owned project that leaves the owner alone always reports the project. */
  lemma UpdateFindsOwned(c: Collection, id: Id, owner: Id, data: Doc, now: nat)
    requires Valid(c) && "user_id" !in data
    ensures Scoped.Owns(c, id, owner) && Get(c[id], "updated_at", Null) != Time(now) ==>
      Update(c, id, owner, data, now).1.Some?
  {
    if Scoped.Owns(c, id, owner) {
      var r := Update(c, id, owner, data, now);
      assert r.0[id]["updated_at"] == Time(now);
    }
  }

  /** `update_status`: only `status` and `updated_at` change; the project read
      back is the old one with those two attributes replaced. */
  function UpdateStatus(c: Collection, id: Id, owner: Id, status: string, now: nat): (r: (Collection, Option<Project>))
    requires Valid(c)
    ensures Valid(r.0)
    ensures r.0.Keys == c.Keys
    ensures forall k :: k in c && k != id ==> r.0[k] == c[k]
    ensures !Scoped.Owns(c, id, owner) ==> r.0 == c && r.1.None?
    ensures Scoped.Owns(c, id, owner) ==>
      && r.0[id].Keys == c[id].Keys + {"status", "updated_at"}
      && r.0[id]["status"] == Str(status) && r.0[id]["updated_at"] == Time(now)
      && forall key :: key in c[id] && key != "status" && key != "updated_at" ==> r.0[id][key] == c[id][key]
    ensures r.1.None? ==> r.0 == c
    ensures r.1.Some? <==> Scoped.Owns(c, id, owner) && r.0[id] != c[id]
    ensures r.1.Some? ==> r.1.value == Entity(c, id, now).(status := Str(status), updatedAt := Time(now))
  {
    var patch := map["status" := Str(status), "updated_at" := Time(now)];
    var w := Scoped.SetOwned(c, id, owner, patch);
    if w.1 then
      assert w.0[id]["_id" := Str(id)] == c[id]["_id" := Str(id)] + patch;
      ProjectModel.StatusPatchReadBack(c[id]["_id" := Str(id)], Str(status), Time(now), now);
      (w.0, GetById(w.0, id, owner, now))
    else
      (w.0, None)
  }

  /** `update_status` is `update` with the one key `status`. */
  lemma StatusUpdateIsStatusPatch(c: Collection, id: Id, owner: Id, status: string, now: nat)
    requires Valid(c)
    ensures UpdateStatus(c, id, owner, status, now) == Update(c, id, owner, map["status" := Str(status)], now)
  {
    assert map["status" := Str(status)]["updated_at" := Time(now)]
        == map["status" := Str(status), "updated_at" := Time(now)];
  }

  /** `delete`: true exactly when an owned project was removed; nothing else changes. */
  function Delete(c: Collection, id: Id, owner: Id): (r: (Collection, bool))
    requires Valid(c)
    ensures Valid(r.0)
    ensures r.1 <==> Scoped.Owns(c, id, owner)
    ensures r.1 ==> r.0.Keys == c.Keys - {id}
    ensures !r.1 ==> r.0 == c
    ensures forall k :: k in r.0 ==> r.0[k] == c[k]
  {
    Scoped.DeleteOwned(c, id, owner)
  }
}

/** `UserRepository`: the `users` collection. */
module UserRepository {
  import opened Documents
  import opened Database
  import opened UserModel

  predicate Valid(c: Collection)
  {
    forall k :: k in c ==> k != "" && "email" in c[k] && "password_hash" in c[k]
  }

  function Entity(c: Collection, id: Id, now: nat): (u: User)
    requires Valid(c) && id in c
    ensures u.id == Str(id) && u.email == c[id]["email"] && u.passwordHash == c[id]["password_hash"]
  {
    FromDocument(c[id]["_id" := Str(id)], now)
  }

  predicate HasEmail(d: Doc, email: string)
  {
    Get(d, "email", Null) == Str(email)
  }

  /** Some stored user has this email. */
  predicate EmailTaken(c: Collection, email: string)
  {
    exists k :: k in c && HasEmail(c[k], email)
  }

  /** `insert`: the database assigns the fresh ObjectId `newId`. */
  function Insert(c: Collection, document: Doc, newId: Id, now: nat): (r: (Collection, User))
    requires Valid(c) && newId !in c && newId != ""
    requires "_id" !in document && "email" in document && "password_hash" in document
    ensures Valid(r.0)
    ensures r.0.Keys == c.Keys + {newId} && r.0[newId] == document
    ensures forall k :: k in c ==> r.0[k] == c[k]
    ensures r.1 == Entity(r.0, newId, now)
  {
    (c[newId := document], FromDocument(document["_id" := Str(newId)], now))
  }

  /** `get_by_email`: `find_one({"email": email})`, some user with that email
      when there is one (which one is the database's choice). */
  method GetByEmail(c: Collection, email: string, now: nat) returns (r: Option<User>)
    requires Valid(c)
    ensures r.None? <==> !EmailTaken(c, email)
    ensures r.Some? ==>
      r.value.id.Str? && r.value.id.s in c && HasEmail(c[r.value.id.s], email)
      && r.value == Entity(c, r.value.id.s, now)
  {
    if k :| k in c && HasEmail(c[k], email) {
      r := Some(Entity(c, k, now));
    } else {
      r := None;
    }
  }

  /** `get_by_id`: `find_one({"_id": id})`. */
  function GetById(c: Collection, id: Id, now: nat): (r: Option<User>)
    requires Valid(c)
    ensures r.Some? <==> id in c
    ensures r.Some? ==> r.value == Entity(c, id, now)
  {
    if id in c then Some(Entity(c, id, now)) else None
  }
}

=== FILE: schemas.dfy ===
/** The request and response models for clients: what a create or update
    payload may hold, what `model_dump(exclude_unset=True)` hands the service,
    and which attributes a response exposes. */
module ClientSchema {
  import opened Documents
  import opened ClientModel

  /** `ClientCreate`, after parsing. There is no owner field: the owner is
      always the authenticated caller. */
  datatype ClientCreate = ClientCreate(
    name: string, email: Option<string>, phone: Option<string>,
    company: Option<string>, notes: Option<string>)

  predicate AtMost(o: Option<string>, n: nat)
  {
    o.None? || |o.value| <= n
  }

  /** The field constraints of `ClientCreate` (the email format is not modelled). */
  predicate CreateValid(p: ClientCreate)
  {
    1 <= |p.name| <= 100 && AtMost(p.phone, 20) && AtMost(p.company, 100)
  }

  /** The fields of `ClientUpdate`. */
  datatype ClientField = Name | Email | Phone | Company | Notes

  /** A parsed `ClientUpdate`: the fields the request set, each with its value;
      a field sent as JSON null maps to `Null`, an omitted one is absent. */
  type ClientUpdate = map<ClientField, Value>

  /** The document key of a field. */
  function Key(f: ClientField): string
  {
    match f
    case Name => "name"
    case Email => "email"
    case Phone => "phone"
    case Company => "company"
    case Notes => "notes"
  }

  const UpdatableKeys: set<string> := {"name", "email", "phone", "company", "notes"}

  /** The attribute of a client a field names. */
  function FieldOf(c: Client, f: ClientField): Value
  {
    match f
    case Name => c.name
    case Email => c.email
    case Phone => c.phone
    case Company => c.company
    case Notes => c.notes
  }

  /** `None`, or a string of length in `[lo, hi]`. */
  predicate OptionalText(v: Value, lo: nat, hi: nat)
  {
    v.Null? || (v.Str? && lo <= |v.s| <= hi)
  }

  /** The constraint `ClientUpdate` places on one field, as written: every
      field is optional, so an explicit null passes for each of them. */
  predicate FieldValid(f: ClientField, v: Value)
  {
    match f
    case Name => OptionalText(v, 1, 100)
    case Email => v.Null? || v.Str?
    case Phone => OptionalText(v, 0, 20)
    case Company => OptionalText(v, 0, 100)
    case Notes => v.Null? || v.Str?
  }

  predicate UpdateValid(u: ClientUpdate)
  {
    forall f :: f in u ==> FieldValid(f, u[f])
  }

  /** The corrected update constraint: the required `name` may be omitted but
      not set to null. */
  predicate UpdateValidKeepingName(u: ClientUpdate)
  {
    UpdateValid(u) && (Name in u ==> u[Name] != Null)
  }

  /** `payload.model_dump(exclude_unset=True)`: exactly the fields the request
      set, under their document keys, with the values as sent. */
  function Dump(u: ClientUpdate): (d: Doc)
    ensures d.Keys <= UpdatableKeys
    ensures forall f :: Key(f) in d <==> f in u
    ensures forall f :: f in u ==> d[Key(f)] == u[f]
    ensures d == map[] <==> u == map[]
  {
    KeysInjective();
    map f | f in u :: Key(f) := u[f]
  }

  /** Distinct fields have distinct document keys. */
  lemma KeysInjective()
    ensures forall f, g :: Key(f) == Key(g) ==> f == g
  {
    forall f, g | Key(f) == Key(g)
      ensures f == g
    {
      KeyInjective(f);
    }
  }

  lemma KeyInjective(f: ClientField)
    ensures forall g :: Key(g) == Key(f) ==> g == f
  {
    forall g | Key(g) == Key(f)
      ensures g == f
    {
      assert Key(g)[0] == Key(f)[0];
      assert |Key(g)| == |Key(f)|;
    }
  }

  /** A stored client whose name is the non-empty text `ClientCreate` demands. */
  predicate Named(d: Doc)
  {
    "name" in d && d["name"].Str? && 1 <= |d["name"].s| <= 100
  }

  /** Every valid create payload yields a named document. */
  lemma CreateIsNamed(owner: Id, p: ClientCreate, now: nat)
    requires CreateValid(p)
    ensures Named(ToDocument(owner, p.name, p.email, p.phone, p.company, p.notes, now))
  {
  }

  /** As written, an update that sends `"name": null` is valid and, once `$set`,
      leaves a client without a name. */
  lemma NullNameUnnamesClient(now: nat)
    ensures var u: ClientUpdate := map[Name := Null];
            var d := ToDocument("u", "Acme", None, None, None, None, 0);
            UpdateValid(u) && Named(d) && !Named(d + Dump(u)["updated_at" := Time(now)])
  {
    var u: ClientUpdate := map[Name := Null];
    assert Key(Name) in Dump(u);
  }

  /** With the corrected constraint every update keeps a named client named. */
  lemma UpdateKeepsNamed(d: Doc, u: ClientUpdate, now: nat)
    requires Named(d) && UpdateValidKeepingName(u)
    ensures Named(d + Dump(u)["updated_at" := Time(now)])
  {
    var d' := d + Dump(u)["updated_at" := Time(now)];
    if Name in u {
      assert Key(Name) in Dump(u);
      assert FieldValid(Name, u[Name]);
      assert d'["name"] == u[Name];
    } else {
      assert "name" !in Dump(u);
      assert d'["name"] == d["name"];
    }
  }

  /** `ClientResponse`: what the API returns for a client; it has no owner. */
  datatype ClientResponse = ClientResponse(
    id: Value, name: Value, email: Value, phone: Value, company: Value,
    notes: Value, createdAt: Value, updatedAt: Value)

  /** The response built from a client object. */
  function ToResponse(c: Client): ClientResponse
  {
    ClientResponse(c.id, c.name, c.email, c.phone, c.company, c.notes, c.createdAt, c.updatedAt)
  }

  /** The response does not depend on the owner: clients that differ only in
      `user_id` answer alike, and every other attribute is carried over. */
  lemma ResponseHidesOwner(c: Client, otherOwner: Value)
    ensures ToResponse(c) == ToResponse(c.(userId := otherOwner))
    ensures ToResponse(c).id == c.id && ToResponse(c).name == c.name
    ensures ToResponse(c).email == c.email && ToResponse(c).phone == c.phone
    ensures ToResponse(c).company == c.company && ToResponse(c).notes == c.notes
    ensures ToResponse(c).createdAt == c.createdAt && ToResponse(c).updatedAt == c.updatedAt
    ensures forall f :: FieldOf(c, f) in {ToResponse(c).name, ToResponse(c).email,
      ToResponse(c).phone, ToResponse(c).company, ToResponse(c).notes}
  {
    forall f ensures FieldOf(c, f) in {ToResponse(c).name, ToResponse(c).email,
      ToResponse(c).phone, ToResponse(c).company, ToResponse(c).notes} {
    }
  }
}

/** The request and response models for projects. */
module ProjectSchema {
  import opened Documents
  import opened ProjectModel

  /** `ProjectCreate`, after parsing. */
  datatype ProjectCreate = ProjectCreate(
    clientId: Id, title: string, description: Option<string>, status: string,
    hourlyRate: Option<real>, deadline: Option<nat>)

  /** Parsing fills in the default status "idea" when the request omits it. */
  function ParseCreate(
    clientId: Id, title: string, description: Option<string>, status: Option<string>,
    hourlyRate: Option<real>, deadline: Option<nat>): (p: ProjectCreate)
    ensures status.None? ==> p.status == "idea"
    ensures status.Some? ==> p.status == status.value
    ensures p.clientId == clientId && p.title == title
  {
    ProjectCreate(clientId, title, description,
      if status.Some? then status.value else "idea", hourlyRate, deadline)
  }

  /** The pattern `^(idea|talks|in-progress|review|completed)$`. */
  predicate StatusPattern(s: string)
  {
    s == "idea" || s == "talks" || s == "in-progress" || s == "review" || s == "completed"
  }

  /** The schema pattern and `Project.STATUS_CHOICES` admit the same five statuses. */
  lemma StatusPatternIsChoices(s: string)
    ensures StatusPattern(s) <==> s in StatusChoices
    ensures |StatusChoices| == 5
    ensures forall i, j :: 0 <= i < j < |StatusChoices| ==> StatusChoices[i] != StatusChoices[j]
  {
  }

  predicate NonNegative(o: Option<real>)
  {
    o.None? || o.value >= 0.0
  }

  /** The field constraints of `ProjectCreate`. */
  predicate CreateValid(p: ProjectCreate)
  {
    1 <= |p.title| <= 200 && StatusPattern(p.status) && NonNegative(p.hourlyRate)
  }

  /** The fields of `ProjectUpdate`. There is no `client_id` among them. */
  datatype ProjectField = Title | Description | Status | HourlyRate | Deadline

  /** A parsed `ProjectUpdate`: the fields the request set; JSON null is `Null`. */
  type ProjectUpdate = map<ProjectField, Value>

  function Key(f: ProjectField): string
  {
    match f
    case Title => "title"
    case Description => "description"
    case Status => "status"
    case HourlyRate => "hourly_rate"
    case Deadline => "deadline"
  }

  const UpdatableKeys: set<string> := {"title", "description", "status", "hourly_rate", "deadline"}

  function FieldOf(p: Project, f: ProjectField): Value
  {
    match f
    case Title => p.title
    case Description => p.description
    case Status => p.status
    case HourlyRate => p.hourlyRate
    case Deadline => p.deadline
  }

  /** The constraint `ProjectUpdate` places on one field, as written: every
      field is optional, so an explicit null passes for each of them. */
  predicate FieldValid(f: ProjectField, v: Value)
  {
    match f
    case Title => v.Null? || (v.Str? && 1 <= |v.s| <= 200)
    case Description => v.Null? || v.Str?
    case Status => v.Null? || (v.Str? && StatusPattern(v.s))
    case HourlyRate => v.Null? || (v.Num? && v.r >= 0.0)
    case Deadline => v.Null? || v.Time?
  }

  predicate UpdateValid(u: ProjectUpdate)
  {
    forall f :: f in u ==> FieldValid(f, u[f])
  }

  /** The corrected update constraint: `title` and `status` may be omitted but
      not set to null. */
  predicate UpdateValidKeepingRequired(u: ProjectUpdate)
  {
    UpdateValid(u) && (Title in u ==> u[Title] != Null) && (Status in u ==> u[Status] != Null)
  }

  /** `payload.model_dump(exclude_unset=True)` */
  function Dump(u: ProjectUpdate): (d: Doc)
    ensures d.Keys <= UpdatableKeys
    ensures forall f :: Key(f) in d <==> f in u
    ensures forall f :: f in u ==> d[Key(f)] == u[f]
    ensures d == map[] <==> u == map[]
  {
    KeysInjective();
    map f | f in u :: Key(f) := u[f]
  }

  /** Distinct fields have distinct document keys. */
  lemma KeysInjective()
    ensures forall f, g :: Key(f) == Key(g) ==> f == g
  {
    forall f, g | Key(f) == Key(g)
      ensures f == g
    {
      KeyInjective(f);
    }
  }

  lemma KeyInjective(f: ProjectField)
    ensures forall g :: Key(g) == Key(f) ==> g == f
  {
    forall g | Key(g) == Key(f)
      ensures g == f
    {
      assert Key(g)[0] == Key(f)[0];
      assert |Key(g)| == |Key(f)|;
    }
  }

  /** No update payload can name the owner, the client or the creation time. */
  lemma DumpLeavesReferencesAlone(u: ProjectUpdate)
    ensures "client_id" !in Dump(u) && "user_id" !in Dump(u) && "created_at" !in Dump(u)
  {
  }

  /** `ProjectStatusUpdate` */
  datatype ProjectStatusUpdate = ProjectStatusUpdate(status: string)

  /** Request validation of a status update: a status outside the five is
      refused with 422 before any handler runs. */
  function ParseStatusUpdate(status: Value): (r: Result<ProjectStatusUpdate>)
    ensures r.Ok? <==> status.Str? && status.s in StatusChoices
    ensures r.Ok? ==> r.value.status == status.s
    ensures r.Err? ==> r.error.status == 422
  {
    if status.Str? && StatusPattern(status.s) then Ok(ProjectStatusUpdate(status.s))
    else Err(HttpError(422, "status"))
  }

  /** A stored project whose title is the text and whose status is one of the
      five values `ProjectCreate` demands. */
  predicate Sound(d: Doc)
  {
    && "title" in d && d["title"].Str? && 1 <= |d["title"].s| <= 200
    && "status" in d && d["status"].Str? && d["status"].s in StatusChoices
  }

  lemma CreateIsSound(owner: Id, p: ProjectCreate, now: nat)
    requires CreateValid(p)
    ensures Sound(ToDocument(owner, p.clientId, p.title, p.description, Some(p.status), p.hourlyRate, p.deadline, now))
  {
  }

  /** As written, an update that sends `"status": null` is valid and, once
      `$set`, leaves a project whose status is none of the five. */
  lemma NullStatusEscapesChoices(now: nat)
    ensures var u: ProjectUpdate := map[Status := Null];
            var d := ToDocument("u", "c", "Site", None, None, None, None, 0);
            UpdateValid(u) && Sound(d) && !Sound(d + Dump(u)["updated_at" := Time(now)])
  {
    var u: ProjectUpdate := map[Status := Null];
    assert Key(Status) in Dump(u);
  }

  /** As written, an update that sends `"title": null` is valid as well and
      leaves a project without a title. */
  lemma NullTitleUntitlesProject(now: nat)
    ensures var u: ProjectUpdate := map[Title := Null];
            var d := ToDocument("u", "c", "Site", None, None, None, None, 0);
            UpdateValid(u) && Sound(d) && !Sound(d + Dump(u)["updated_at" := Time(now)])
  {
    var u: ProjectUpdate := map[Title := Null];
    assert Key(Title) in Dump(u);
  }

  /** With the corrected constraint every update keeps a sound project sound. */
  lemma UpdateKeepsSound(d: Doc, u: ProjectUpdate, now: nat)
    requires Sound(d) && UpdateValidKeepingRequired(u)
    ensures Sound(d + Dump(u)["updated_at" := Time(now)])
  {
    var d' := d + Dump(u)["updated_at" := Time(now)];
    if Title in u {
      assert Key(Title) in Dump(u);
      assert FieldValid(Title, u[Title]);
      assert d'["title"] == u[Title];
    } else {
      assert "title" !in Dump(u);
    }
    if Status in u {
      assert Key(Status) in Dump(u);
      assert FieldValid(Status, u[Status]);
      assert d'["status"] == u[Status];
      StatusPatternIsChoices(u[Status].s);
    } else {
      assert "status" !in Dump(u);
    }
  }
}

/** The request and response models for accounts. */
module AuthSchema {
  import opened Documents
  import opened UserModel

  /** `RegisterRequest`, after parsing. */
  datatype RegisterRequest = RegisterRequest(email: string, password: string, fullName: Option<string>)

  /** The field constraints of `RegisterRequest` (the email format is not modelled). */
  predicate RegisterValid(p: RegisterRequest)
  {
    8 <= |p.password| <= 64 && (p.fullName.None? || |p.fullName.value| <= 80)
  }

  /** `LoginRequest`: its password carries no length constraint. */
  datatype LoginRequest = LoginRequest(email: string, password: string)

  /** `UserResponse`: id, email and full name, and nothing else. */
  datatype UserResponse = UserResponse(id: Value, email: Value, fullName: Value)

  function ToUserResponse(u: User): UserResponse
  {
    UserResponse(u.id, u.email, u.fullName)
  }

  /** The response does not depend on the password hash or the timestamps. */
  lemma UserResponseHidesSecrets(u: User, hash: Value, stamp: Value)
    ensures ToUserResponse(u) == ToUserResponse(u.(passwordHash := hash, createdAt := stamp, updatedAt := stamp))
    ensures ToUserResponse(u).id == u.id && ToUserResponse(u).email == u.email
  {
  }
}

=== FILE: scoped.dfy ===
/** The owner-scoped collection primitives both resource repositories are built
    from. Every read, write and delete filters on the pair
    `{"_id": id, "user_id": owner}`; a listing is `find(query)` followed by
    `sort("created_at", -1)`. */
module Scoped {
  import opened Documents
  import opened Database

  /** The filter `{"_id": id, "user_id": owner}` matches a document. */
  predicate Owns(c: Collection, id: Id, owner: Id)
  {
    id in c && Get(c[id], "user_id", Null) == Str(owner)
  }

  /** `find_one(filter)` */
  function FindOwned(c: Collection, id: Id, owner: Id): (r: Option<Doc>)
    ensures r.Some? <==> Owns(c, id, owner)
    ensures r.Some? ==> r.value == c[id]
  {
    if Owns(c, id, owner) then Some(c[id]) else None
  }

  /** `update_one(filter, {"$set": patch})`: the collection afterwards and
      whether `modified_count` is non-zero. A matched document that the patch
      leaves as it was counts as not modified. */
  function SetOwned(c: Collection, id: Id, owner: Id, patch: Doc): (r: (Collection, bool))
    ensures r.1 ==> Owns(c, id, owner)
    ensures !r.1 ==> r.0 == c
    ensures Owns(c, id, owner) ==> r.0 == c[id := c[id] + patch]
    ensures !Owns(c, id, owner) ==> r.0 == c
  {
    if Owns(c, id, owner) then
      var d := c[id] + patch;
      (c[id := d], d != c[id])
    else
      (c, false)
  }

  /** A second `$set` of at least the same keys overwrites the first one,
      provided the first leaves the owner alone. */
  lemma SetTwice(c: Collection, id: Id, owner: Id, first: Doc, second: Doc)
    requires first.Keys <= second.Keys && "user_id" !in first
    ensures SetOwned(SetOwned(c, id, owner, first).0, id, owner, second).0 == SetOwned(c, id, owner, second).0
  {
    if Owns(c, id, owner) {
      var d := c[id];
      assert (d + first) + second == d + second;
    }
  }

  /** `delete_one(filter)`: the collection afterwards and `deleted_count > 0`. */
  function DeleteOwned(c: Collection, id: Id, owner: Id): (r: (Collection, bool))
    ensures r.1 <==> Owns(c, id, owner)
    ensures r.1 ==> r.0.Keys == c.Keys - {id}
    ensures !r.1 ==> r.0 == c
    ensures forall k :: k in r.0 ==> k in c && r.0[k] == c[k]
  {
    if Owns(c, id, owner) then (c - {id}, true) else (c, false)
  }

  /** The sort key: the `created_at` clock reading (0 when it is not a datetime). */
  function Stamp(v: Value): nat
  {
    if v.Time? then v.t else 0
  }

  function CreatedAt(d: Doc): nat
  {
    Stamp(Get(d, "created_at", Null))
  }

  /** `ks` names documents of `c` in order of `created_at`, newest first. */
  predicate NewestFirst(c: Collection, ks: seq<Id>)
  {
    (forall i :: 0 <= i < |ks| ==> ks[i] in c) &&
    forall i, j :: 0 <= i < j < |ks| ==> CreatedAt(c[ks[i]]) >= CreatedAt(c[ks[j]])
  }

  /** The keys of the documents a query selects. */
  function Selected(c: Collection, keep: Doc -> bool): set<Id>
  {
    set k | k in c && keep(c[k])
  }

  /** Places `k` in a newest-first sequence, after every strictly newer document. */
  function InsertNewestFirst(c: Collection, ks: seq<Id>, k: Id): (r: seq<Id>)
    requires k in c && NewestFirst(c, ks)
    ensures multiset(r) == multiset(ks) + multiset{k}
    ensures NewestFirst(c, r)
    decreases |ks|
  {
    if |ks| == 0 || CreatedAt(c[ks[0]]) <= CreatedAt(c[k]) then
      [k] + ks
    else
      var rest := InsertNewestFirst(c, ks[1..], k);
      HeadStaysFirst(c, ks, k, rest);
      [ks[0]] + rest
  }

  /** The step of `InsertNewestFirst` that keeps the head: it is newer than
      `k` and than everything after it, so it stays in front. */
  lemma HeadStaysFirst(c: Collection, ks: seq<Id>, k: Id, rest: seq<Id>)
    requires k in c && NewestFirst(c, ks) && |ks| > 0
    requires CreatedAt(c[ks[0]]) > CreatedAt(c[k])
    requires multiset(rest) == multiset(ks[1..]) + multiset{k}
    requires NewestFirst(c, rest)
    ensures multiset([ks[0]] + rest) == multiset(ks) + multiset{k}
    ensures NewestFirst(c, [ks[0]] + rest)
  {
    assert ks == [ks[0]] + ks[1..];
    forall j | 0 <= j < |rest|
      ensures CreatedAt(c[ks[0]]) >= CreatedAt(c[rest[j]])
    {
      assert rest[j] in multiset(rest);
      assert rest[j] == k || rest[j] in multiset(ks[1..]);
    }
    var r := [ks[0]] + rest;
    forall i, j | 0 <= i < j < |r|
      ensures CreatedAt(c[r[i]]) >= CreatedAt(c[r[j]])
    {
      if i > 0 {
        assert r[i] == rest[i - 1] && r[j] == rest[j - 1];
      }
    }
  }

  /** A key found at two positions is counted twice. */
  lemma RepeatCountsTwice(ks: seq<Id>, i: nat, j: nat)
    requires i < j < |ks|
    ensures ks[i] == ks[j] ==> multiset(ks)[ks[i]] >= 2
  {
    assert ks == ks[..i] + [ks[i]] + ks[i + 1..j] + [ks[j]] + ks[j + 1..];
  }

  /** A sequence whose multiset is that of a set holds no key twice. */
  lemma SetMultisetDistinct(ks: seq<Id>, s: set<Id>)
    requires multiset(ks) == multiset(s)
    ensures forall i, j :: 0 <= i < j < |ks| ==> ks[i] != ks[j]
    ensures forall k :: k in s <==> k in ks
  {
    forall i, j | 0 <= i < j < |ks|
      ensures ks[i] != ks[j]
    {
      RepeatCountsTwice(ks, i, j);
      assert multiset(s)[ks[i]] <= 1;
    }
    forall k
      ensures k in s <==> k in ks
    {
      assert k in s <==> k in multiset(s);
      assert k in ks <==> k in multiset(ks);
    }
  }

  /** `find(query).sort("created_at", -1)` over the keys `keep` selects: every
      selected document exactly once, newest first; ties in any order. */
  method SelectNewestFirst(c: Collection, keep: Doc -> bool) returns (ks: seq<Id>)
    ensures forall i :: 0 <= i < |ks| ==> ks[i] in c && keep(c[ks[i]])
    ensures forall k :: k in c && keep(c[k]) ==> k in ks
    ensures forall i, j :: 0 <= i < j < |ks| ==> ks[i] != ks[j]
    ensures NewestFirst(c, ks)
  {
    var todo := c.Keys;
    ks := [];
    ghost var done: set<Id> := {};
    while todo != {}
      invariant todo <= c.Keys
      invariant done == Selected(c, keep) - todo
      invariant multiset(ks) == multiset(done)
      invariant NewestFirst(c, ks)
      decreases |todo|
    {
      var k :| k in todo;
      if keep(c[k]) {
        ks := InsertNewestFirst(c, ks, k);
        assert k !in done;
        assert multiset(done + {k}) == multiset(done) + multiset{k};
        done := done + {k};
      }
      todo := todo - {k};
    }
    SetMultisetDistinct(ks, done);
    forall i | 0 <= i < |ks|
      ensures ks[i] in c && keep(c[ks[i]])
    {
      assert ks[i] in done;
    }
  }
}

=== FILE: services.dfy ===
/** `ClientService`: the client operations a signed-in user calls. Absence in
    the repository becomes a 404 "Client not found". */
module ClientService {
  import opened Documents
  import opened Database
  import opened ClientModel
  import opened ClientSchema
  import Scoped
  import ClientRepository

  const ClientNotFound := HttpError(404, "Client not found")

  /** `create`: a new client owned by the caller, the payload taken verbatim. */
  function Create(db: Db, owner: Id, p: ClientCreate, newId: Id, now: nat): (r: (Db, Result<Client>))
    requires ClientRepository.Valid(db.clients) && newId !in db.clients && newId != ""
    ensures r.0.users == db.users && r.0.projects == db.projects
    ensures ClientRepository.Valid(r.0.clients)
    ensures r.0.clients.Keys == db.clients.Keys + {newId}
    ensures forall k :: k in db.clients ==> r.0.clients[k] == db.clients[k]
    ensures Scoped.Owns(r.0.clients, newId, owner)
    ensures r.1 == Ok(Client(Str(newId), Str(owner), Str(p.name), Nullable(p.email), Nullable(p.phone),
                             Nullable(p.company), Nullable(p.notes), Time(now), Time(now)))
  {
    var document := ToDocument(owner, p.name, p.email, p.phone, p.company, p.notes, now);
    var ins := ClientRepository.Insert(db.clients, document, newId, now);
    ClientModel.ReadBackNew(newId, owner, p.name, p.email, p.phone, p.company, p.notes, now, now);
    (db.(clients := ins.0), Ok(ins.1))
  }

  /** `list`: the caller's clients the search selects, newest first. */
  method List(db: Db, owner: Id, search: Option<string>, now: nat) returns (r: seq<Client>)
    requires ClientRepository.Valid(db.clients)
    ensures forall i :: 0 <= i < |r| ==> r[i].userId == Str(owner)
    ensures forall i :: 0 <= i < |r| ==>
      r[i].id.Str? && r[i].id.s in db.clients && ClientRepository.Listed(db.clients[r[i].id.s], owner, search)
      && r[i] == ClientRepository.Entity(db.clients, r[i].id.s, now)
    ensures forall k :: k in db.clients && ClientRepository.Listed(db.clients[k], owner, search) ==>
      ClientRepository.Entity(db.clients, k, now) in r
    ensures forall i, j :: 0 <= i < j < |r| ==> r[i].id != r[j].id
    ensures forall i, j :: 0 <= i < j < |r| ==> Scoped.Stamp(r[i].createdAt) >= Scoped.Stamp(r[j].createdAt)
  {
    r := ClientRepository.ListByUser(db.clients, owner, search, now);
  }

  /** `get`: the caller's client, or 404 whether it is missing or someone else's. */
  function Get(db: Db, id: Id, owner: Id, now: nat): (r: Result<Client>)
    requires ClientRepository.Valid(db.clients)
    ensures r.Err? <==> !Scoped.Owns(db.clients, id, owner)
    ensures r.Err? ==> r.error == ClientNotFound
    ensures r.Ok? ==> r.value == ClientRepository.Entity(db.clients, id, now) && r.value.userId == Str(owner)
  {
    match ClientRepository.GetById(db.clients, id, owner, now)
    case None => Err(ClientNotFound)
    case Some(c) => Ok(c)
  }

  /** `update`: an empty payload is a read with no write; otherwise the fields
      the request set are written and nothing else about the client changes
      except its `updated_at`. */
  function Update(db: Db, id: Id, owner: Id, payload: ClientUpdate, now: nat): (r: (Db, Result<Client>))
    requires ClientRepository.Valid(db.clients)
    ensures ClientRepository.Valid(r.0.clients)
    ensures r.0.users == db.users && r.0.projects == db.projects
    ensures r.0.clients.Keys == db.clients.Keys
    ensures forall k :: k in db.clients && k != id ==> r.0.clients[k] == db.clients[k]
    ensures payload == map[] ==> r.0 == db && r.1 == Get(db, id, owner, now)
    ensures r.1.Err? ==> r.0 == db && r.1.error == ClientNotFound
    ensures !Scoped.Owns(db.clients, id, owner) ==> r.1.Err?
    ensures Scoped.Owns(db.clients, id, owner) && Documents.Get(db.clients[id], "updated_at", Null) != Time(now) ==> r.1.Ok?
    ensures r.1.Ok? ==> Scoped.Owns(db.clients, id, owner) && Scoped.Owns(r.0.clients, id, owner)
    ensures r.1.Ok? ==> r.1.value == ClientRepository.Entity(r.0.clients, id, now)
    ensures r.1.Ok? && payload != map[] ==>
      var before := ClientRepository.Entity(db.clients, id, now);
      && (forall f :: f in payload ==> FieldOf(r.1.value, f) == payload[f])
      && (forall f :: f !in payload ==> FieldOf(r.1.value, f) == FieldOf(before, f))
      && r.1.value.id == before.id && r.1.value.userId == before.userId
      && r.1.value.createdAt == before.createdAt && r.1.value.updatedAt == Time(now)
  {
    var data := Dump(payload);
    if data == map[] then
      (db, Get(db, id, owner, now))
    else
      var w := ClientRepository.Update(db.clients, id, owner, data, now);
      ClientRepository.UpdateFindsOwned(db.clients, id, owner, data, now);
      if w.1.None? then
        (db.(clients := w.0), Err(ClientNotFound))
      else
        assert w.0[id] == db.clients[id] + data["updated_at" := Time(now)];
        WrittenFields(db.clients, w.0, id, payload, now);
        WrittenIdentity(db.clients, w.0, id, payload, now);
        (db.(clients := w.0), Ok(w.1.value))
  }

  /** A field of a stored client is the document's value under the field's key. */
  lemma EntityField(c: Collection, id: Id, now: nat, f: ClientField)
    requires ClientRepository.Valid(c) && id in c
    ensures FieldOf(ClientRepository.Entity(c, id, now), f) == Documents.Get(c[id], Key(f), Null)
  {
  }

  /** Writing `Dump(payload)` to a client sets the fields the payload names
      and keeps the others. */
  lemma WrittenFields(c: Collection, c2: Collection, id: Id, payload: ClientUpdate, now: nat)
    requires ClientRepository.Valid(c) && ClientRepository.Valid(c2) && id in c && id in c2
    requires c2[id] == c[id] + Dump(payload)["updated_at" := Time(now)]
    ensures var before := ClientRepository.Entity(c, id, now);
            var after := ClientRepository.Entity(c2, id, now);
            (forall f :: f in payload ==> FieldOf(after, f) == payload[f])
            && (forall f :: f !in payload ==> FieldOf(after, f) == FieldOf(before, f))
  {
    forall f
      ensures f in payload ==> FieldOf(ClientRepository.Entity(c2, id, now), f) == payload[f]
      ensures f !in payload ==>
        FieldOf(ClientRepository.Entity(c2, id, now), f) == FieldOf(ClientRepository.Entity(c, id, now), f)
    {
      WrittenField(c, c2, id, payload, now, f);
    }
  }

  /** Writing `Dump(payload)` keeps the record's identity, owner and
      creation time, and stamps it with `now`. */
  lemma WrittenIdentity(c: Collection, c2: Collection, id: Id, payload: ClientUpdate, now: nat)
    requires ClientRepository.Valid(c) && ClientRepository.Valid(c2) && id in c && id in c2
    requires c2[id] == c[id] + Dump(payload)["updated_at" := Time(now)]
    ensures var before := ClientRepository.Entity(c, id, now);
            var after := ClientRepository.Entity(c2, id, now);
            && after.id == before.id && after.userId == before.userId
            && after.createdAt == before.createdAt && after.updatedAt == Time(now)
  {
    var data := Dump(payload);
    assert "user_id" !in data && "created_at" !in data;
    assert c2[id]["updated_at"] == Time(now);
  }

  /** One field of `WrittenFields`. */
  lemma WrittenField(c: Collection, c2: Collection, id: Id, payload: ClientUpdate, now: nat, f: ClientField)
    requires ClientRepository.Valid(c) && ClientRepository.Valid(c2) && id in c && id in c2
    requires c2[id] == c[id] + Dump(payload)["updated_at" := Time(now)]
    ensures f in payload ==> FieldOf(ClientRepository.Entity(c2, id, now), f) == payload[f]
    ensures f !in payload ==> FieldOf(ClientRepository.Entity(c2, id, now), f) == FieldOf(ClientRepository.Entity(c, id, now), f)
  {
    var data := Dump(payload);
    EntityField(c, id, now, f);
    EntityField(c2, id, now, f);
    var key := Key(f);
    var default := Null;
    assert key != "updated_at";
    if f in payload {
      assert key in data && data[key] == payload[f];
    } else {
      assert key !in data;
      assert Documents.Get(c2[id], key, default) == Documents.Get(c[id], key, default);
    }
  }

  /** `delete`: 404 when nothing was removed. Projects are left as they are:
      deleting a client does not cascade. */
  function Delete(db: Db, id: Id, owner: Id): (r: (Db, Result<()>))
    requires ClientRepository.Valid(db.clients)
    ensures ClientRepository.Valid(r.0.clients)
    ensures r.0.users == db.users && r.0.projects == db.projects
    ensures r.1.Err? <==> !Scoped.Owns(db.clients, id, owner)
    ensures r.1.Err? ==> r.0 == db && r.1.error == ClientNotFound
    ensures r.1.Ok? ==> r.0.clients.Keys == db.clients.Keys - {id}
    ensures forall k :: k in r.0.clients ==> r.0.clients[k] == db.clients[k]
  {
    var d := ClientRepository.Delete(db.clients, id, owner);
    if d.1 then (db.(clients := d.0), Ok(())) else (db, Err(ClientNotFound))
  }

  /** Create then get: the caller reads back exactly what create returned,
      and nobody else can read it. */
  lemma CreateThenGet(db: Db, owner: Id, other: Id, p: ClientCreate, newId: Id, now: nat, later: nat)
    requires ClientRepository.Valid(db.clients) && newId !in db.clients && newId != ""
    requires other != owner
    ensures var c := Create(db, owner, p, newId, now);
            Get(c.0, newId, owner, later) == c.1 && Get(c.0, newId, other, later) == Err(ClientNotFound)
  {
    var c := Create(db, owner, p, newId, now);
    ClientModel.ClockIrrelevantWithTimestamps(c.0.clients[newId]["_id" := Str(newId)], now, later);
  }

  /** Under the corrected `ClientUpdate` constraint an update keeps every
      stored client named. */
  lemma UpdateKeepsClientsNamed(db: Db, id: Id, owner: Id, payload: ClientUpdate, now: nat)
    requires ClientRepository.Valid(db.clients) && UpdateValidKeepingName(payload)
    requires forall k :: k in db.clients ==> Named(db.clients[k])
    ensures var r := Update(db, id, owner, payload, now);
            forall k :: k in r.0.clients ==> Named(r.0.clients[k])
  {
    var r := Update(db, id, owner, payload, now);
    if Dump(payload) != map[] && Scoped.Owns(db.clients, id, owner) {
      var d := db.clients[id] + Dump(payload)["updated_at" := Time(now)];
      assert r.0.clients == db.clients[id := d] || r.0 == db;
      UpdateKeepsNamed(db.clients[id], payload, now);
    }
  }

  /** Delete then get: a deleted client is gone for its owner, and every
      other client reads as before. */
  lemma DeleteThenGet(db: Db, id: Id, owner: Id, other: Id, reader: Id, now: nat)
    requires ClientRepository.Valid(db.clients) && other != id
    ensures var d := Delete(db, id, owner);
            && Get(d.0, id, owner, now) == Err(ClientNotFound)
            && Get(d.0, other, reader, now) == Get(db, other, reader, now)
  {
  }

}

/** `ProjectService`: the project operations a signed-in user calls. A new
    project must name a client of the same owner. */
module ProjectService {
  import opened Documents
  import opened Database
  import opened ProjectModel
  import opened ProjectSchema
  import Scoped
  import ClientRepository
  import ProjectRepository
  import ClientService
  import ClientModel

  const ProjectNotFound := HttpError(404, "Project not found")

  predicate Valid(db: Db)
  {
    ClientRepository.Valid(db.clients) && ProjectRepository.Valid(db.projects)
  }

  /** `create`: refused with "Client not found" unless the caller owns the
      client the payload names; otherwise a new project for that client. */
  function Create(db: Db, owner: Id, p: ProjectCreate, newId: Id, now: nat): (r: (Db, Result<Project>))
    requires Valid(db) && newId !in db.projects && newId != ""
    ensures Valid(r.0)
    ensures r.0.users == db.users && r.0.clients == db.clients
    ensures r.1.Err? <==> !Scoped.Owns(db.clients, p.clientId, owner)
    ensures r.1.Err? ==> r.0 == db && r.1.error == ClientService.ClientNotFound
    ensures r.1.Ok? ==>
      && r.0.projects.Keys == db.projects.Keys + {newId}
      && (forall k :: k in db.projects ==> r.0.projects[k] == db.projects[k])
      && Scoped.Owns(r.0.projects, newId, owner)
      && r.1.value == Project(Str(newId), Str(owner), Str(p.clientId), Str(p.title),
                              Nullable(p.description), Str(p.status), RateValue(p.hourlyRate),
                              DeadlineValue(p.deadline), Time(now), Time(now))
  {
    match ClientRepository.GetById(db.clients, p.clientId, owner, now)
    case None => (db, Err(ClientService.ClientNotFound))
    case Some(_) =>
      var document := ToDocument(owner, p.clientId, p.title, p.description, Some(p.status),
                                 p.hourlyRate, p.deadline, now);
      var ins := ProjectRepository.Insert(db.projects, document, newId, now);
      ProjectModel.ReadBackNew(newId, owner, p.clientId, p.title, p.description, Some(p.status),
                               p.hourlyRate, p.deadline, now, now);
      (db.(projects := ins.0), Ok(ins.1))
  }

  /** `list`: the caller's projects, of one client when one is named, newest first. */
  method List(db: Db, owner: Id, clientId: Option<Id>, now: nat) returns (r: seq<Project>)
    requires ProjectRepository.Valid(db.projects)
    ensures forall i :: 0 <= i < |r| ==> r[i].userId == Str(owner)
    ensures clientId.Some? && clientId.value != "" ==>
      forall i :: 0 <= i < |r| ==> r[i].clientId == Str(clientId.value)
    ensures forall i :: 0 <= i < |r| ==>
      r[i].id.Str? && r[i].id.s in db.projects && ProjectRepository.Listed(db.projects[r[i].id.s], owner, clientId)
      && r[i] == ProjectRepository.Entity(db.projects, r[i].id.s, now)
    ensures forall k :: k in db.projects && ProjectRepository.Listed(db.projects[k], owner, clientId) ==>
      ProjectRepository.Entity(db.projects, k, now) in r
    ensures forall i, j :: 0 <= i < j < |r| ==> r[i].id != r[j].id
    ensures forall i, j :: 0 <= i < j < |r| ==> Scoped.Stamp(r[i].createdAt) >= Scoped.Stamp(r[j].createdAt)
  {
    r := ProjectRepository.ListByUser(db.projects, owner, clientId, now);
  }

  /** `get`: the caller's project, or 404. */
  function Get(db: Db, id: Id, owner: Id, now: nat): (r: Result<Project>)
    requires ProjectRepository.Valid(db.projects)
    ensures r.Err? <==> !Scoped.Owns(db.projects, id, owner)
    ensures r.Err? ==> r.error == ProjectNotFound
    ensures r.Ok? ==> r.value == ProjectRepository.Entity(db.projects, id, now) && r.value.userId == Str(owner)
  {
    match ProjectRepository.GetById(db.projects, id, owner, now)
    case None => Err(ProjectNotFound)
    case Some(p) => Ok(p)
  }

  /** `update`: an empty payload is a read with no write; otherwise the fields
      the request set are written. The client and owner never change. */
  function Update(db: Db, id: Id, owner: Id, payload: ProjectUpdate, now: nat): (r: (Db, Result<Project>))
    requires ProjectRepository.Valid(db.projects)
    ensures ProjectRepository.Valid(r.0.projects)
    ensures r.0.users == db.users && r.0.clients == db.clients
    ensures r.0.projects.Keys == db.projects.Keys
    ensures forall k :: k in db.projects && k != id ==> r.0.projects[k] == db.projects[k]
    ensures payload == map[] ==> r.0 == db && r.1 == Get(db, id, owner, now)
    ensures r.1.Err? ==> r.0 == db && r.1.error == ProjectNotFound
    ensures !Scoped.Owns(db.projects, id, owner) ==> r.1.Err?
    ensures Scoped.Owns(db.projects, id, owner) && Documents.Get(db.projects[id], "updated_at", Null) != Time(now) ==> r.1.Ok?
    ensures r.1.Ok? ==> Scoped.Owns(db.projects, id, owner) && Scoped.Owns(r.0.projects, id, owner)
    ensures r.1.Ok? ==> r.1.value == ProjectRepository.Entity(r.0.projects, id, now)
    ensures r.1.Ok? && payload != map[] ==>
      var before := ProjectRepository.Entity(db.projects, id, now);
      && (forall f :: f in payload ==> FieldOf(r.1.value, f) == payload[f])
      && (forall f :: f !in payload ==> FieldOf(r.1.value, f) == FieldOf(before, f))
      && r.1.value.id == before.id && r.1.value.userId == before.userId
      && r.1.value.clientId == before.clientId
      && r.1.value.createdAt == before.createdAt && r.1.value.updatedAt == Time(now)
  {
    var data := Dump(payload);
    if data == map[] then
      (db, Get(db, id, owner, now))
    else
      var w := ProjectRepository.Update(db.projects, id, owner, data, now);
      ProjectRepository.UpdateFindsOwned(db.projects, id, owner, data, now);
      if w.1.None? then
        (db.(projects := w.0), Err(ProjectNotFound))
      else
        assert w.0[id] == db.projects[id] + data["updated_at" := Time(now)];
        WrittenFields(db.projects, w.0, id, payload, now);
        WrittenIdentity(db.projects, w.0, id, payload, now);
        (db.(projects := w.0), Ok(w.1.value))
  }

  /** A field of a stored project is the document's value under the field's
      key; a missing status reads as the default. */
  lemma EntityField(c: Collection, id: Id, now: nat, f: ProjectField)
    requires ProjectRepository.Valid(c) && id in c
    ensures FieldOf(ProjectRepository.Entity(c, id, now), f)
         == Documents.Get(c[id], Key(f), if f == Status then Str(DefaultStatus) else Null)
  {
  }

  /** Writing `Dump(payload)` to a project sets the fields the payload names
      and keeps the others. */
  lemma WrittenFields(c: Collection, c2: Collection, id: Id, payload: ProjectUpdate, now: nat)
    requires ProjectRepository.Valid(c) && ProjectRepository.Valid(c2) && id in c && id in c2
    requires c2[id] == c[id] + Dump(payload)["updated_at" := Time(now)]
    ensures var before := ProjectRepository.Entity(c, id, now);
            var after := ProjectRepository.Entity(c2, id, now);
            (forall f :: f in payload ==> FieldOf(after, f) == payload[f])
            && (forall f :: f !in payload ==> FieldOf(after, f) == FieldOf(before, f))
  {
    DumpLeavesReferencesAlone(payload);
    forall f
      ensures f in payload ==> FieldOf(ProjectRepository.Entity(c2, id, now), f) == payload[f]
      ensures f !in payload ==>
        FieldOf(ProjectRepository.Entity(c2, id, now), f) == FieldOf(ProjectRepository.Entity(c, id, now), f)
    {
      WrittenField(c, c2, id, payload, now, f);
    }
  }

  /** Writing `Dump(payload)` keeps the record's identity, owner, client and
      creation time, and stamps it with `now`. */
  lemma WrittenIdentity(c: Collection, c2: Collection, id: Id, payload: ProjectUpdate, now: nat)
    requires ProjectRepository.Valid(c) && ProjectRepository.Valid(c2) && id in c && id in c2
    requires c2[id] == c[id] + Dump(payload)["updated_at" := Time(now)]
    ensures var before := ProjectRepository.Entity(c, id, now);
            var after := ProjectRepository.Entity(c2, id, now);
            && after.id == before.id && after.userId == before.userId
            && after.clientId == before.clientId
            && after.createdAt == before.createdAt && after.updatedAt == Time(now)
  {
    var data := Dump(payload);
    DumpLeavesReferencesAlone(payload);
    assert c2[id]["updated_at"] == Time(now);
  }

  /** One field of `WrittenFields`. */
  lemma WrittenField(c: Collection, c2: Collection, id: Id, payload: ProjectUpdate, now: nat, f: ProjectField)
    requires ProjectRepository.Valid(c) && ProjectRepository.Valid(c2) && id in c && id in c2
    requires c2[id] == c[id] + Dump(payload)["updated_at" := Time(now)]
    ensures f in payload ==> FieldOf(ProjectRepository.Entity(c2, id, now), f) == payload[f]
    ensures f !in payload ==> FieldOf(ProjectRepository.Entity(c2, id, now), f) == FieldOf(ProjectRepository.Entity(c, id, now), f)
  {
    var data := Dump(payload);
    EntityField(c, id, now, f);
    EntityField(c2, id, now, f);
    var key := Key(f);
    var default := if f == Status then Str(DefaultStatus) else Null;
    assert key != "updated_at";
    if f in payload {
      assert key in data && data[key] == payload[f];
    } else {
      assert key !in data;
      assert Documents.Get(c2[id], key, default) == Documents.Get(c[id], key, default);
    }
  }

  /** `update_status`: 404 for a project the caller does not own; otherwise
      the project with only its status and `updated_at` replaced. */
  function UpdateStatus(db: Db, id: Id, owner: Id, p: ProjectStatusUpdate, now: nat): (r: (Db, Result<Project>))
    requires ProjectRepository.Valid(db.projects)
    ensures ProjectRepository.Valid(r.0.projects)
    ensures r.0.users == db.users && r.0.clients == db.clients
    ensures r.0.projects.Keys == db.projects.Keys
    ensures forall k :: k in db.projects && k != id ==> r.0.projects[k] == db.projects[k]
    ensures r.1.Err? ==> r.0 == db && r.1.error == ProjectNotFound
    ensures !Scoped.Owns(db.projects, id, owner) ==> r.1.Err?
    ensures Scoped.Owns(db.projects, id, owner) && Documents.Get(db.projects[id], "updated_at", Null) != Time(now) ==> r.1.Ok?
    ensures r.1.Ok? ==>
      && Scoped.Owns(db.projects, id, owner) && Scoped.Owns(r.0.projects, id, owner)
      && r.0.projects[id].Keys == db.projects[id].Keys + {"status", "updated_at"}
      && r.0.projects[id]["status"] == Str(p.status) && r.0.projects[id]["updated_at"] == Time(now)
      && forall key :: key in db.projects[id] && key != "status" && key != "updated_at" ==>
           r.0.projects[id][key] == db.projects[id][key]
    ensures r.1.Ok? ==>
      r.1.value == ProjectRepository.Entity(db.projects, id, now).(status := Str(p.status), updatedAt := Time(now))
  {
    var w := ProjectRepository.UpdateStatus(db.projects, id, owner, p.status, now);
    if w.1.None? then (db.(projects := w.0), Err(ProjectNotFound))
    else (db.(projects := w.0), Ok(w.1.value))
  }

  /** A status update request as the framework runs it: the body is validated
      first, and an invalid status answers 422 without touching the store. */
  function UpdateStatusRequest(db: Db, id: Id, owner: Id, status: Value, now: nat): (r: (Db, Result<Project>))
    requires ProjectRepository.Valid(db.projects)
    ensures !(status.Str? && status.s in StatusChoices) ==> r.0 == db && r.1.Err? && r.1.error.status == 422
    ensures status.Str? && status.s in StatusChoices ==> r == UpdateStatus(db, id, owner, ProjectStatusUpdate(status.s), now)
  {
    match ParseStatusUpdate(status)
    case Err(e) => (db, Err(e))
    case Ok(p) => UpdateStatus(db, id, owner, p, now)
  }

  /** `delete`: 404 when nothing was removed. */
  function Delete(db: Db, id: Id, owner: Id): (r: (Db, Result<()>))
    requires ProjectRepository.Valid(db.projects)
    ensures ProjectRepository.Valid(r.0.projects)
    ensures r.0.users == db.users && r.0.clients == db.clients
    ensures r.1.Err? <==> !Scoped.Owns(db.projects, id, owner)
    ensures r.1.Err? ==> r.0 == db && r.1.error == ProjectNotFound
    ensures r.1.Ok? ==> r.0.projects.Keys == db.projects.Keys - {id}
    ensures forall k :: k in r.0.projects ==> r.0.projects[k] == db.projects[k]
  {
    var d := ProjectRepository.Delete(db.projects, id, owner);
    if d.1 then (db.(projects := d.0), Ok(())) else (db, Err(ProjectNotFound))
  }

  /** Under the corrected `ProjectUpdate` constraint an update keeps every
      stored project sound. */
  lemma UpdateKeepsProjectsSound(db: Db, id: Id, owner: Id, payload: ProjectUpdate, now: nat)
    requires ProjectRepository.Valid(db.projects) && UpdateValidKeepingRequired(payload)
    requires forall k :: k in db.projects ==> Sound(db.projects[k])
    ensures var r := Update(db, id, owner, payload, now);
            forall k :: k in r.0.projects ==> Sound(r.0.projects[k])
  {
    var r := Update(db, id, owner, payload, now);
    if Dump(payload) != map[] && Scoped.Owns(db.projects, id, owner) {
      var d := db.projects[id] + Dump(payload)["updated_at" := Time(now)];
      assert r.0.projects == db.projects[id := d] || r.0 == db;
      UpdateKeepsSound(db.projects[id], payload, now);
    }
  }

  /** Create then get: the caller reads back exactly what create returned. */
  lemma CreateThenGet(db: Db, owner: Id, p: ProjectCreate, newId: Id, now: nat, later: nat)
    requires Valid(db) && newId !in db.projects && newId != ""
    ensures var c := Create(db, owner, p, newId, now);
            c.1.Ok? ==> Get(c.0, newId, owner, later) == c.1
  {
    var c := Create(db, owner, p, newId, now);
    if c.1.Ok? {
      ProjectModel.ClockIrrelevantWithTimestamps(c.0.projects[newId]["_id" := Str(newId)], now, later);
    }
  }

  /** Delete then get: a deleted project is gone for its owner, and every
      other project reads as before. */
  lemma DeleteThenGet(db: Db, id: Id, owner: Id, other: Id, reader: Id, now: nat)
    requires ProjectRepository.Valid(db.projects) && other != id
    ensures var d := Delete(db, id, owner);
            && Get(d.0, id, owner, now) == Err(ProjectNotFound)
            && Get(d.0, other, reader, now) == Get(db, other, reader, now)
  {
  }

  /** The project document names a client that the project's owner owns. */
  predicate HasOwnedClient(clients: Collection, d: Doc)
  {
    var cid := Documents.Get(d, "client_id", Null);
    var uid := Documents.Get(d, "user_id", Null);
    cid.Str? && uid.Str? && Scoped.Owns(clients, cid.s, uid.s)
  }

  /** Every project names a client of its own owner. */
  predicate ReferencesOwnedClients(db: Db)
  {
    forall k :: k in db.projects ==> HasOwnedClient(db.clients, db.projects[k])
  }

  /** Creating a project keeps every project pointing at a client of its owner. */
  lemma CreateKeepsReferences(db: Db, owner: Id, p: ProjectCreate, newId: Id, now: nat)
    requires Valid(db) && newId !in db.projects && newId != ""
    requires ReferencesOwnedClients(db)
    ensures ReferencesOwnedClients(Create(db, owner, p, newId, now).0)
  {
    var r := Create(db, owner, p, newId, now);
    if r.1.Ok? {
      forall k | k in r.0.projects
        ensures HasOwnedClient(r.0.clients, r.0.projects[k])
      {
        if k != newId {
          assert r.0.projects[k] == db.projects[k];
        }
      }
    }
  }

  /** No update moves a project to another client or owner. */
  lemma UpdateKeepsOwnerAndClient(db: Db, id: Id, owner: Id, u: ProjectUpdate, now: nat)
    requires ProjectRepository.Valid(db.projects)
    ensures var r := Update(db, id, owner, u, now);
            forall k :: k in db.projects ==>
              && r.0.projects[k]["client_id"] == db.projects[k]["client_id"]
              && r.0.projects[k]["user_id"] == db.projects[k]["user_id"]
  {
    var r := Update(db, id, owner, u, now);
    DumpLeavesReferencesAlone(u);
    if Dump(u) != map[] && Scoped.Owns(db.projects, id, owner) {
      var d := db.projects[id];
      assert r.0.projects[id]["client_id"] == d["client_id"];
      assert r.0.projects[id]["user_id"] == d["user_id"];
    }
  }

  /** Updating a project keeps every project pointing at a client of its owner. */
  lemma UpdateKeepsReferences(db: Db, id: Id, owner: Id, u: ProjectUpdate, now: nat)
    requires Valid(db) && ReferencesOwnedClients(db)
    ensures ReferencesOwnedClients(Update(db, id, owner, u, now).0)
  {
    var r := Update(db, id, owner, u, now);
    UpdateKeepsOwnerAndClient(db, id, owner, u, now);
    forall k | k in r.0.projects
      ensures HasOwnedClient(r.0.clients, r.0.projects[k])
    {
      assert HasOwnedClient(db.clients, db.projects[k]);
    }
  }

  /** The reference is checked only at creation: deleting the client afterwards
      succeeds and leaves its project pointing at nothing. */
  lemma ClientDeleteCanOrphanProject()
    ensures var db := Db(map[],
                         map["c1" := ClientModel.ToDocument("u1", "Acme", None, None, None, None, 1)],
                         map["p1" := ToDocument("u1", "c1", "Site", None, None, None, None, 2)]);
            var r := ClientService.Delete(db, "c1", "u1");
            ReferencesOwnedClients(db) && r.1.Ok? && !ReferencesOwnedClients(r.0)
  {
    var db := Db(map[],
                 map["c1" := ClientModel.ToDocument("u1", "Acme", None, None, None, None, 1)],
                 map["p1" := ToDocument("u1", "c1", "Site", None, None, None, None, 2)]);
    assert HasOwnedClient(db.clients, db.projects["p1"]);
    var r := ClientService.Delete(db, "c1", "u1");
    assert "c1" !in r.0.clients;
    assert !HasOwnedClient(r.0.clients, r.0.projects["p1"]);
  }
}

=== FILE: text.dfy ===
/** Case-insensitive substring matching, the meaning the client search gives a
    term: `{"$regex": term, "$options": "i"}` read as a literal string. Case is
    folded for the ASCII letters only. */
module Text {

  /** The lower-case form of an ASCII letter; every other character is itself. */
  function Lower(ch: char): char
  {
    if 'A' <= ch <= 'Z' then (ch as int + 32) as char else ch
  }

  function LowerAll(s: string): (r: string)
    ensures |r| == |s|
    ensures forall i :: 0 <= i < |s| ==> r[i] == Lower(s[i])
  {
    seq(|s|, i requires 0 <= i < |s| => Lower(s[i]))
  }

  /** `term` occurs in `s` starting at `at`, ignoring case. */
  predicate OccursAt(s: string, term: string, at: int)
  {
    0 <= at && at + |term| <= |s| &&
    forall j :: 0 <= j < |term| ==> Lower(s[at + j]) == Lower(term[j])
  }

  /** `term` occurs somewhere in `s`, ignoring case. */
  predicate ContainsIgnoringCase(s: string, term: string)
  {
    exists at :: 0 <= at <= |s| - |term| && OccursAt(s, term, at)
  }

  lemma LowerIdempotent(ch: char)
    ensures Lower(Lower(ch)) == Lower(ch)
  {
  }

  /** An exact occurrence is found whatever the case of either side. */
  lemma ExactOccurrenceFound(s: string, term: string, at: nat)
    requires at + |term| <= |s| && s[at..at + |term|] == term
    ensures ContainsIgnoringCase(s, term)
    ensures ContainsIgnoringCase(LowerAll(s), term)
    ensures ContainsIgnoringCase(s, LowerAll(term))
  {
    forall j | 0 <= j < |term|
      ensures s[at + j] == term[j]
    {
      assert s[at..at + |term|][j] == s[at + j];
    }
    assert OccursAt(s, term, at);
    forall j | 0 <= j < |term|
      ensures Lower(LowerAll(s)[at + j]) == Lower(term[j])
    {
      LowerIdempotent(s[at + j]);
    }
    assert OccursAt(LowerAll(s), term, at);
    forall j | 0 <= j < |term|
      ensures Lower(s[at + j]) == Lower(LowerAll(term)[j])
    {
      LowerIdempotent(term[j]);
    }
    assert OccursAt(s, LowerAll(term), at);
  }

  /** Folding the case of the term changes nothing about the match. */
  lemma TermCaseIrrelevant(s: string, term: string)
    ensures ContainsIgnoringCase(s, term) <==> ContainsIgnoringCase(s, LowerAll(term))
  {
    forall at | 0 <= at <= |s| - |term|
      ensures OccursAt(s, term, at) <==> OccursAt(s, LowerAll(term), at)
    {
      forall j | 0 <= j < |term|
        ensures Lower(LowerAll(term)[j]) == Lower(term[j])
      {
        LowerIdempotent(term[j]);
      }
    }
  }

  /** Matching at one position is equality of the lower-cased slice with the
      lower-cased term. */
  lemma OccursAtIsLoweredSlice(s: string, term: string, at: int)
    requires 0 <= at && at + |term| <= |s|
    ensures OccursAt(s, term, at) <==> LowerAll(s)[at..at + |term|] == LowerAll(term)
  {
    var a, b := LowerAll(s)[at..at + |term|], LowerAll(term);
    forall j | 0 <= j < |term|
      ensures a[j] == Lower(s[at + j]) && b[j] == Lower(term[j])
    {
    }
    if OccursAt(s, term, at) {
      assert forall j :: 0 <= j < |a| ==> a[j] == b[j];
    }
  }

  /** The lower-cased text holds the lower-cased term at position `at`. */
  predicate LoweredSliceAt(s: string, term: string, at: int)
  {
    0 <= at <= |s| - |term| && LowerAll(s)[at..at + |term|] == LowerAll(term)
  }

  /** The search, characterised independently: the term matches exactly when
      the lower-cased text contains the lower-cased term as a slice. */
  lemma SearchIsLoweredSubstring(s: string, term: string)
    ensures ContainsIgnoringCase(s, term) <==> exists at :: LoweredSliceAt(s, term, at)
  {
    if ContainsIgnoringCase(s, term) {
      var at :| 0 <= at <= |s| - |term| && OccursAt(s, term, at);
      OccursAtIsLoweredSlice(s, term, at);
      assert LoweredSliceAt(s, term, at);
    }
    if exists at :: LoweredSliceAt(s, term, at) {
      var at :| LoweredSliceAt(s, term, at);
      OccursAtIsLoweredSlice(s, term, at);
      assert OccursAt(s, term, at);
    }
  }

  /** A client named "Acme Corp" is found by the term "acme". */
  lemma AcmeCorpFoundByAcme()
    ensures ContainsIgnoringCase("Acme Corp", "acme")
    ensures ContainsIgnoringCase("Acme Corp", "CORP")
    ensures !ContainsIgnoringCase("Acme Corp", "acme inc")
  {
    assert OccursAt("Acme Corp", "acme", 0);
    assert OccursAt("Acme Corp", "CORP", 5);
    var s, term := "Acme Corp", "acme inc";
    forall at | 0 <= at <= |s| - |term|
      ensures !OccursAt(s, term, at)
    {
      var j := if at == 0 then 5 else 0;
      assert Lower(s[at + j]) != Lower(term[j]);
    }
  }
}
